=== FILE: README.md ===
# EduLearn study-material generator, modelled in Dafny

EduLearn turns the text of a PDF into study material: keywords, a mind map,
a three-tier summary and a quiz. It also keeps a small gamification record
of points, a level and badges. This project models that text pipeline of
`EduLearnApp` (app.js) as pure Dafny functions and proves what each step
promises.

The project has these modules, one per part of the program:

- `Basics` — optional values (the source's `null`), `filter`, `slice(0, n)` and a no-duplicates predicate.
- `Text` — the string operations the pipeline relies on:
  - JavaScript character classes;
  - lower- and upper-casing;
  - `split` on one separator character, and its inverse `join`;
  - `trim`;
  - `indexOf`, `includes`, `replace` and global `replace`;
  - decimal `parseInt` and `toString`.
- `Ranking` — a stable sort in descending key order followed by `slice(0, k)`. The sort is represented as the permutation of positions it produces.
- `Keywords` — `extractKeywords`.
- `Segment` — the sentence filter `text.split(/[.!?]+/).filter(s => s.trim().length > n)`.
- `MindMap` — `generateMindMapFromText`, `findRelatedSentences` and `extractKeyPhrase`.
- `Summary` — `generateSummaryFromText` and `createSummary`.
- `Quiz` — `generateQuizFromText`, the three question builders, `modifySentenceToFalse` and `shuffleArray`.
- `Progress` — `getGradeFromPercentage`, `updateLevel`, `addPoints` and `checkBadgeRequirement`.

`Math.random` is an input. Each quiz slot receives a `Draw` with four fields:

- `target` is a natural number, reduced modulo the number of long words, as `Math.floor(Math.random() * n)` does;
- `swaps` is a sequence of natural numbers, one per pass of the shuffle, each reduced modulo the range that pass draws from (a missing entry counts as 0);
- `coin` is a boolean, the outcome of `Math.random() > 0.5`;
- `rewrite` is a natural number, reduced modulo the four rewrites.

So every outcome the source can produce is reachable, and no other.

## Model

| member | source | states |
|---|---|---|
| Text.Capitalize | app.js:747-749 | same length; the first character is upper-cased and the rest is unchanged |
| Text.LowerStr | app.js:244 | `toLowerCase`: same length, every character lower-cased; LowerUndoesUpper and CapitalizeInvertible are its partners |
| Text.CapitalizeInvertible | app.js:747-749 | on a lower-case word, lower-casing the capitalised word gives the word back, so capitalising loses nothing |
| Text.LowerUndoesUpper | app.js:747-749 | lower-casing undoes upper-casing on every lower-case letter |
| Text.Split | app.js:249 | a split has one more piece than the separators in the text, and no piece holds a separator |
| Text.SplitChars | app.js:249 | every character of a piece comes from the split text |
| Text.SplitAppend | app.js:335 | splitting two texts joined by a separator gives the pieces of the first followed by the pieces of the second |
| Text.Join | app.js:297 | `join` starts with the first piece; JoinSplit and SplitJoin make it the inverse of `split` |
| Text.JoinOnlySeparator | app.js:297 | joining separator-free pieces with one separator character leaves that character as the only separator in the result |
| Text.JoinSplit | app.js:249 | joining the blank-separated pieces with a blank gives the text back |
| Text.SplitJoin | app.js:297 | splitting a join of separator-free pieces recovers the pieces |
| Text.Trim | app.js:249-250 | `trim` removes only whitespace and only at the ends: the result is a slice of the text, everything before and after it is whitespace, and it neither starts nor ends with whitespace |
| Text.IndexOf | app.js:339 | the first occurrence of the pattern, or none when the pattern does not occur |
| Text.Contains | app.js:244 | `includes` holds exactly when the pattern occurs at some position of the text |
| Text.ReplaceFirst | app.js:339 | `replace` with a string pattern: the text is unchanged when the pattern is absent, otherwise its length changes by the replacement's length less the pattern's; ReplaceFirstUndo is its partner |
| Text.JoinOccurs | app.js:335-338 | every piece occurs in the join of the pieces |
| Text.PieceOccurs | app.js:335-338 | every word of the sentence occurs in it, so `replace` always finds the chosen word |
| Text.ReplaceFirstUndo | app.js:339 | `replace` with a string pattern replaces only the first occurrence: writing the pattern back over the replacement restores the text |
| Text.ReplaceAll | app.js:407-409 | a global replace never shortens the text when the replacement is at least as long as the pattern |
| Text.ReplaceAllUnchanged | app.js:407-409 | a global replace changes nothing when the pattern does not occur |
| Text.ReplaceAllGrows | app.js:407-409 | with a longer replacement, any occurrence of the pattern makes the text longer |
| Text.ReplaceAllFirst | app.js:407-409 | a global replace keeps the text before the first occurrence, puts the replacement in its place and carries on after it, so the result holds the replacement at the first occurrence's position |
| Text.DecimalRoundTrip | app.js:410 | `parseInt` reads back what `toString` writes for every natural number |
| Text.DecimalValue | app.js:410 | a run of k digits that `parseInt` reads has a value below 10^k |
| Text.DecimalLeadingZero | app.js:410 | a leading zero does not change the value `parseInt` reads, so "007" reads as 7 |
| Text.Decimal | app.js:410 | `toString` of a natural number is a non-empty run of digits, with no leading zero from 10 on |
| Text.DecimalLength | app.js:410 | `toString` writes exactly as many digits as the number needs: n < 10^k, and 10^(k-1) <= n when k > 1 |
| Ranking.InsertSorted | app.js:238 | inserting a later position keeps descending key order, and equal keys stay in position order: the sort is stable |
| Ranking.SortStep | app.js:238 | inserting the next position into the sorted earlier ones sorts one more position |
| Ranking.SortPrefix | app.js:238 | the sorted positions are a permutation of the positions and are in stable descending order |
| Ranking.StableOrder | app.js:238 | every position appears in the sorted order |
| Ranking.TopPositions | app.js:238-239 | `slice(0, k)` after the sort keeps min(k, n) positions in order, and any position left out comes after all kept ones |
| Ranking.TopPrefix | app.js:238-239 | asking for fewer top positions gives a prefix of the longer answer |
| Keywords.Normalize | app.js:221-222 | same length; only white space and keyword characters remain; a character that lower-cases to one of those becomes its lower-case form, any other becomes a blank |
| Keywords.Candidates | app.js:221-228 | every counted token qualifies (longer than three characters, not a stop word, not a number), and every qualifying token of the normalised text is counted as often as it occurs there |
| Keywords.CandidatesAppend | app.js:221-228 | tokens are counted in text order: the tokens of two texts joined by a character that normalises to white space (white space or punctuation) are those of the first followed by those of the second |
| Keywords.CandidatesAreLowerCase | app.js:221-223 | every counted token is lower-case |
| Keywords.Distinct | app.js:231-237 | the keys of the frequency table: each token once, in order of first appearance |
| Keywords.RankSorted | app.js:237-239 | the ranked keywords are distinct tokens, each ranks above every later one (more frequent, or as frequent and seen first) |
| Keywords.RankComplete | app.js:237-239 | a token left out of the ranking means ten keywords were kept, each ranking above it |
| Keywords.Rank | app.js:237-239 | at most ten keywords, no duplicates, all drawn from the tokens, in ranking order, and any token left out means ten were kept that each rank above it |
| Keywords.ExtractKeywords | app.js:213-240 | at most ten distinct lower-case qualifying tokens of the text, ordered by frequency with ties in order of first appearance, and none left out that would outrank a kept one |
| Segment.Sentences | app.js:193 | every kept piece has a trimmed length above the bound and no sentence end, and every piece between sentence ends that is long enough is kept as often as it occurs |
| Segment.SentencesAppend | app.js:193 | sentences come in text order: those of two texts joined at a `.`, `!` or `?` are the first text's followed by the second's |
| Segment.SentencesSingle | app.js:193 | a text without a sentence end is one sentence, kept exactly when it is long enough |
| MindMap.Related | app.js:244 | the kept sentences mention the keyword case-insensitively; each sentence that does is kept as often as it occurs; none is kept exactly when none does |
| MindMap.RelatedAppend | app.js:244 | related sentences keep document order: those of two runs of sentences are the first run's followed by the second's |
| MindMap.FindRelatedSentences | app.js:242-246 | the first five related sentences |
| MindMap.ExtractKeyPhrase | app.js:248-259 | a prefix of the trimmed sentence: the whole of it up to six words, otherwise its first three words joined by blanks, at least two characters long |
| MindMap.BuildBranch | app.js:199-205 | the topic is the capitalised keyword; the subtopics are the key phrases of the first four related sentences, empty exactly when no sentence mentions the keyword |
| MindMap.DefaultTopicCapitalized | app.js:196 | capitalising the default topic leaves it unchanged |
| MindMap.BuildMindMap | app.js:195-210 | the central topic is the top keyword capitalised, or the default topic; one branch, built from the sentences, for each of keywords two to six in rank order |
| MindMap.GenerateMindMap | app.js:191-211 | the mind map has that shape for the extracted keywords and the sentences longer than twenty characters |
| Summary.ScoreScaled | app.js:275-286 | the integer score is the source's score times 10n exactly |
| Summary.ScoreOrder | app.js:275-293 | the integer scores of two sentences compare as the source's scores do |
| Summary.Scores | app.js:274-289 | one integer per sentence, each exactly 10n times the source's score of that sentence from its position, whether its word count is between 10 and 30, and how many keywords it holds |
| Summary.Selection | app.js:292-294 | the positions of the `maxSentences` best sentences, best first, ties in document order; every sentence left out scores no better than every chosen one |
| Summary.Chosen | app.js:288-295 | the chosen sentences, trimmed, in selection order |
| Summary.CreateSummary | app.js:272-298 | the summary ends in a full stop, and is just "." when no sentence is chosen |
| Summary.LayoutSplits | app.js:297 | splitting the joined summary at sentence ends gives back the chosen sentences: the first as is, each further one after one blank, then an empty tail; every sentence end in it is a full stop |
| Summary.SummaryLayout | app.js:272-298 | for sentences free of sentence ends, the summary splits back into exactly the chosen sentences, and its only sentence ends are the full stops of `join('. ') + '.'` |
| Summary.SummaryLaidOut | app.js:272-298 | such a summary splits back into the chosen sentences, ends in a full stop and holds no `!` or `?` |
| Summary.GenerateSummary | app.js:261-270 | each of the three tiers splits back into exactly the 3, 6 and 10 chosen sentences, respectively, of the sentences longer than thirty characters, ends in a full stop and has full stops as its only sentence ends |
| Summary.TiersNested | app.js:265-269 | a shorter tier's sentences are a prefix of a longer tier's |
| Quiz.Below | app.js:338 | `Math.floor(Math.random() * n)`: the drawn index is below n, and every index below n is drawn by some value |
| Quiz.Swap | app.js:754 | the swap exchanges two entries, leaves the others alone and permutes the list |
| Quiz.ShuffleDown | app.js:752-755 | each pass of the Fisher-Yates loop permutes the list |
| Quiz.Shuffle | app.js:751-757 | `shuffleArray` returns a permutation of its input |
| Basics.Filter | app.js:343 | every kept element passes the test, and nothing is kept exactly when no element passes |
| Basics.Take | app.js:239 | `slice(0, n)`: min(n, length) elements, the leading ones of the list |
| Basics.FilterMembers | app.js:343 | an element is kept exactly when it is in the list and passes |
| Basics.FilterCount | app.js:343 | an element that passes is kept as many times as it occurs, one that fails never |
| Basics.FilterAppend | app.js:343 | filtering keeps the list order: filtering a concatenation filters each part in turn |
| Basics.FilterFirst | app.js:384-388 | the first kept element is the first element that passes |
| Basics.Somes | app.js:326-331 | every present value is kept, and nothing else |
| Basics.SomesCount | app.js:326-331 | each present value is kept as many times as it is present |
| Basics.SomesAppend | app.js:326-331 | skipping missing values keeps the order of the present ones |
| Basics.PermutationDistinct | app.js:751-757 | a permutation of a list without duplicates, such as a shuffle of it, has no duplicates |
| Quiz.Position | app.js:353 | `indexOf`: the first position of the value, or -1 exactly when the value is absent |
| Quiz.LongWords | app.js:335 | every kept word is a blank-separated word of the sentence longer than four characters, and every such word is kept as often as it occurs |
| Quiz.LongWordsAppend | app.js:335 | long words keep sentence order: those of two parts joined by a blank are the first part's followed by the second's |
| Quiz.OtherKeywords | app.js:342-343 | the keywords other than the lower-cased target, each kept as often as it occurs, and none equal to the target |
| Quiz.OtherKeywordsAppend | app.js:342-343 | the distractor candidates keep keyword rank order |
| Quiz.Distractors | app.js:341-344 | the first three other keywords, capitalised |
| Quiz.Options | app.js:346-347 | the options hold the target and are a permutation of the target and its distractors, at most four |
| Quiz.CreateMultipleChoiceQuestion | app.js:334-357 | no question for fewer than five long words; otherwise the drawn long word is the correct option, the options are its shuffled candidates, and the question blanks its first occurrence |
| Quiz.DistractorsApart | app.js:342-345 | with distinct lower-case keywords, the capitalised distractors differ from each other and from the target |
| Quiz.CandidatesDistinct | app.js:341-346 | with distinct lower-case keywords, the target and its distractors differ pairwise |
| Quiz.OptionsDistinct | app.js:341-347 | then the shuffled options differ pairwise too |
| Quiz.MultipleChoiceDistinct | app.js:334-357 | with distinct lower-case keywords, a multiple choice question never offers the same option twice |
| Quiz.IncrementNumbers | app.js:410 | a text without digits is unchanged, and whether the text starts with a digit is preserved |
| Quiz.IncrementNumbersChanges | app.js:410 | adding ten to every number changes any text that holds a digit |
| Quiz.IncrementNumbersNumeral | app.js:410 | any run of digits, leading zeros included, followed by text that does not start with a digit becomes its value plus ten, printed without leading zeros ("007" becomes "17"), followed by the rewritten text |
| Quiz.IncrementNumbersPrinted | app.js:410 | a printed number n followed by text that does not start with a digit becomes the printed number n + 10, followed by the rewritten text |
| Quiz.IncrementNumbersText | app.js:410 | text without digits in front of the rest is kept as it is |
| Quiz.IncrementNumbersDecimal | app.js:410 | the printed number n becomes the printed number n + 10 |
| Quiz.ModifySentenceToFalse | app.js:404-415 | the three word rewrites never shorten the sentence; ModifyChangesIff states when each rewrite changes it |
| Quiz.ModifyChangesIff | app.js:404-415 | the chosen rewrite changes the sentence exactly when its pattern (or, for the fourth, a digit) occurs in it |
| Quiz.NoJestUnchanged | app.js:407 | the "jest" rewrite leaves a sentence without the letter j unchanged |
| Quiz.CreateTrueFalseQuestion | app.js:359-381 | options Prawda/Fałsz; answer 0 exactly on heads, with the sentence as is; otherwise answer 1 with the rewritten sentence |
| Quiz.FalseStatementCanBeUnchanged | app.js:370-379 | a statement marked false can be the document's own sentence, word for word |
| Quiz.ImportantWords | app.js:384-388 | the important words of the sentence; the first of them is the first word that is important; none exactly when no word is important |
| Quiz.CreateFillBlankQuestion | app.js:383-402 | no question when no word is important; otherwise the first important word, option 0 of four fixed variants, blanked at its first occurrence |
| Quiz.FillBlankRestores | app.js:391-395 | the answer occurs in the sentence, and writing it into the blank gives the sentence back |
| Quiz.SlotCount | app.js:308 | the loop runs for every i with i < 12 and 5i < n, and only for those |
| Quiz.SlotSentence | app.js:310 | slot i uses sentence 3i, which is always in range |
| Quiz.KindOfSlot | app.js:306-309 | slot i has kind `questionTypes[i % 3]`: multiple choice, true/false and fill-in-the-blank in turn |
| Quiz.Slot | app.js:309-324 | a slot's question is well formed and of the slot's kind; true/false slots always yield one; the slot's sentence is in range |
| Quiz.SlotAboutSentence | app.js:309-324 | slot i's question comes from sentence 3i: a multiple-choice answer is one of its long words, a true/false statement is the sentence or its rewrite, a blank's answer is its first important word |
| Quiz.Slots | app.js:308-329 | one entry per loop iteration, each the question built in that slot |
| Quiz.CollectQuestions | app.js:326-331 | the quiz is the first ten questions the slots produced, in slot order: the present slot values with the missing ones skipped, cut to ten; each is well formed and from a slot of its kind |
| Quiz.GenerateQuiz | app.js:300-332 | the first ten questions produced by the slots over the sentences longer than twenty characters and the extracted keywords, in slot order, each well formed |
| Progress.GradeFromPercentage | app.js:710-719 | one of the eight grades: the lowest exactly below 35 percent, the highest exactly from 95; GradeByThresholds and GradeMonotone are its partners |
| Progress.GradeByThresholds | app.js:710-719 | the grade is the one whose rank is the number of thresholds 35, 45, …, 95 the percentage reaches |
| Progress.GradeMonotone | app.js:710-719 | a higher percentage never predicts a lower grade |
| Progress.LevelFor | app.js:770-773 | one of the four levels: the lowest exactly below 200 points, the highest exactly from 1000; LevelByThresholds and LevelMonotone are its partners |
| Progress.LevelByThresholds | app.js:770-773 | the level is the one whose rank is the number of thresholds 200, 500, 1000 the points reach |
| Progress.LevelMonotone | app.js:766-779 | more points never mean a lower level |
| Progress.UpdateLevel | app.js:766-779 | the level is recomputed from the points alone, and nothing else changes |
| Progress.AddPoints | app.js:760-764 | the points grow by the amount, the level follows them, and badges and counters are unchanged |
| Progress.AddPointsNeverDemotes | app.js:760-779 | adding points never lowers a consistent user's level |
| Progress.InitialConsistent | app.js:13-19 | a new user's level agrees with zero points and is the lowest |
| Progress.FindBadge | app.js:782-785 | a catalogue badge for the requirement that is not yet earned, with no such badge before it in the catalogue; none exactly when all such badges are earned |
| Progress.CheckBadgeRequirement | app.js:781-791 | the badge list only grows, by at most one name, which is a badge for the requirement not earned before; it is unchanged exactly when all such badges are earned; no name repeats |
| Progress.BadgesAccumulate | app.js:781-791 | over any run of checks, earned badges stay earned and in order, no name repeats, and each check adds at most one |

## Left out

- Reading PDFs, the DOM, rendering, popups, timers, `localStorage`, recent documents, zoom and export are I/O and are not modelled.
- `showQuizResults` is not modelled beyond the grade mapping. It divides by zero when there are no answers (app.js:689).
- The `paragraphs` value in `generateSummaryFromText` is computed and never used, so it is not modelled.
- The `type` argument of `createSummary` is never read, so it is not modelled.
- Summary.ScoreOrder: scores are compared in exact arithmetic. The source adds floating-point numbers, and rounding could break a tie or order two nearly equal scores the other way.
- Keywords.Distinct: the frequency table is a true map. In the source, a token such as `constructor` or `__proto__` meets `Object.prototype` properties.
- Text.Capitalize: case mapping covers ASCII and the Polish letters only. JavaScript's full Unicode mapping is not modelled; for example, an upper-cased `ß` becomes two characters there.
- Text.Split: lengths count Dafny characters. The source counts UTF-16 code units, which differ for characters outside the Basic Multilingual Plane.
- Text.DecimalRoundTrip: numbers are unbounded. `parseInt` and `toString` lose precision beyond 2^53 and switch to exponent notation from 10^21.
- The JavaScript splits on `/\s+/` and `/[.!?]+/` are modelled as splits on single separator characters. These produce extra empty pieces only. Every consumer drops them, because they are shorter than its length bound, so the results agree.
- The fallback `|| sentences[i]` in `generateQuizFromText` (app.js:310) cannot fire: inside the loop 5i < n, so 3i is in range and sentence 3i is never empty.
- `completedQuizzes` and `documentsProcessed` are carried in the record, but the code that increments them is I/O flow and is not modelled.
- Some behaviour of the program is easy to mistake, and the model keeps it as it is:
  - a summary lists its sentences in score order, not in document order (app.js:292-294);
  - a mind-map branch whose keyword no sentence mentions has no subtopics (app.js:199-205);
  - a multiple choice question has fewer than four options when there are fewer than three other keywords (app.js:342-347);
  - a sentence that no rewrite touches is still marked false (app.js:370-379);
  - the quiz has a slot for each i with i < 12 and 5i < n (app.js:308);
  - a keyword needs no minimum frequency and has no maximum length (app.js:221-239);
  - a key phrase of a long sentence is its first three words, without an ellipsis (app.js:248-259).

=== FILE: basics.dfy ===
/** Small sequence utilities shared by every part of the model: an optional
    value (the source's `null` results), filtering, truncation (`slice(0, n)`)
    and the no-duplicates predicate. */
module Basics {

  /** A value that may be missing; `None` stands for the source's `null`. */
  datatype Option<+T> = None | Some(value: T)

  function Min(a: int, b: int): int {
    if a <= b then a else b
  }

  predicate NoDuplicates<T(==)>(s: seq<T>) {
    forall i, j :: 0 <= i < j < |s| ==> s[i] != s[j]
  }

  /** `s.slice(0, n)`: the first `n` elements, or all of them. */
  function Take<T>(s: seq<T>, n: nat): (r: seq<T>)
    ensures |r| == Min(n, |s|)
    ensures forall i :: 0 <= i < |r| ==> r[i] == s[i]
  {
    if n <= |s| then s[..n] else s
  }

  /** `s.filter(p)`: the elements satisfying `p`, in their original order. */
  function Filter<T>(s: seq<T>, p: T -> bool): (r: seq<T>)
    ensures |r| <= |s|
    ensures forall i :: 0 <= i < |r| ==> p(r[i])
    ensures |r| == 0 <==> forall k :: 0 <= k < |s| ==> !p(s[k])
  {
    if |s| == 0 then []
    else
      var rest := Filter(s[1..], p);
      if p(s[0]) then [s[0]] + rest else rest
  }

  /** The kept elements are exactly the elements that pass. */
  lemma {:induction false} FilterMembers<T>(s: seq<T>, p: T -> bool)
    ensures forall x :: x in Filter(s, p) <==> x in s && p(x)
    decreases |s|
  {
    if |s| > 0 {
      FilterMembers(s[1..], p);
      assert forall x :: x in s <==> x == s[0] || x in s[1..];
    }
  }

  /** The first element kept is the first element that passes. */
  lemma {:induction false} FilterFirst<T>(s: seq<T>, p: T -> bool)
    requires |Filter(s, p)| > 0
    ensures exists i :: 0 <= i < |s| && s[i] == Filter(s, p)[0] && forall k :: 0 <= k < i ==> !p(s[k])
    decreases |s|
  {
    if !p(s[0]) {
      FilterFirst(s[1..], p);
      var j :| 0 <= j < |s[1..]| && s[1..][j] == Filter(s[1..], p)[0] && forall k :: 0 <= k < j ==> !p(s[1..][k]);
      forall k | 0 <= k < j + 1 ensures !p(s[k]) {
        if k > 0 { assert s[k] == s[1..][k - 1]; }
      }
      assert s[j + 1] == Filter(s, p)[0];
    }
  }

  /** Filtering keeps the original order: the kept elements of a
      concatenation are those of the first part followed by those of the
      second. With the one-element case this pins `Filter` down. */
  lemma {:induction false} FilterAppend<T>(a: seq<T>, b: seq<T>, p: T -> bool)
    ensures Filter(a + b, p) == Filter(a, p) + Filter(b, p)
    decreases |a|
  {
    if |a| > 0 {
      assert (a + b)[1..] == a[1..] + b;
      FilterAppend(a[1..], b, p);
    } else {
      assert a + b == b;
    }
  }

  /** Filtering keeps every occurrence of a value that passes and none of
      one that fails. */
  lemma {:induction false} FilterCount<T>(s: seq<T>, p: T -> bool, x: T)
    ensures multiset(Filter(s, p))[x] == if p(x) then multiset(s)[x] else 0
    decreases |s|
  {
    if |s| > 0 {
      assert s == [s[0]] + s[1..];
      FilterCount(s[1..], p, x);
    }
  }

  lemma FilterSingle<T>(x: T, p: T -> bool)
    ensures Filter([x], p) == if p(x) then [x] else []
  {
    assert [x][1..] == [];
  }

  /** Filtering a list without duplicates keeps it without duplicates. */
  lemma {:induction false} FilterDistinct<T>(s: seq<T>, p: T -> bool)
    requires NoDuplicates(s)
    ensures NoDuplicates(Filter(s, p))
    decreases |s|
  {
    if |s| > 0 {
      FilterDistinct(s[1..], p);
      FilterMembers(s[1..], p);
      assert s[0] !in s[1..];
    }
  }

  /** A value put in front of a list without duplicates, differing from
      every element, keeps it without duplicates. */
  lemma ConsDistinct<T>(x: T, d: seq<T>)
    requires NoDuplicates(d) && forall j :: 0 <= j < |d| ==> d[j] != x
    ensures NoDuplicates([x] + d)
  {
    var all := [x] + d;
    forall i, j | 0 <= i < j < |all| ensures all[i] != all[j] {
      assert all[j] == d[j - 1];
      if i > 0 { assert all[i] == d[i - 1]; }
    }
  }

  /** In a list without duplicates every value occurs at most once. */
  lemma {:induction false} DistinctCount<T>(s: seq<T>, x: T)
    requires NoDuplicates(s)
    ensures multiset(s)[x] <= 1
    decreases |s|
  {
    if |s| > 0 {
      assert s == [s[0]] + s[1..];
      DistinctCount(s[1..], x);
      if x == s[0] {
        assert x !in s[1..];
      }
    }
  }

  /** A permutation of a list without duplicates has none either. */
  lemma PermutationDistinct<T>(a: seq<T>, b: seq<T>)
    requires multiset(a) == multiset(b) && NoDuplicates(a)
    ensures NoDuplicates(b)
  {
    forall i, j | 0 <= i < j < |b| ensures b[i] != b[j] {
      if b[i] == b[j] {
        var x := b[i];
        assert b == b[..j] + b[j..];
        assert x in b[..j] && x in b[j..];
        assert multiset(b)[x] == multiset(b[..j])[x] + multiset(b[j..])[x];
        DistinctCount(a, x);
      }
    }
  }

  /** The values of the present entries, in order: the source's
      "skip the slots whose builder returned null". */
  function Somes<T>(s: seq<Option<T>>): (r: seq<T>)
    ensures |r| <= |s|
    ensures forall i :: 0 <= i < |r| ==> Some(r[i]) in s
    ensures forall i :: 0 <= i < |s| && s[i].Some? ==> s[i].value in r
  {
    if |s| == 0 then []
    else
      var rest := Somes(s[1..]);
      assert forall i :: 1 <= i < |s| ==> s[i] == s[1..][i - 1];
      match s[0]
      case None => rest
      case Some(v) => [v] + rest
  }

  /** Skipping the missing entries keeps the order of the present ones. */
  lemma {:induction false} SomesAppend<T>(a: seq<Option<T>>, b: seq<Option<T>>)
    ensures Somes(a + b) == Somes(a) + Somes(b)
    decreases |a|
  {
    if |a| > 0 {
      assert (a + b)[1..] == a[1..] + b;
      SomesAppend(a[1..], b);
    } else {
      assert a + b == b;
    }
  }

  /** Each present value is kept as many times as it is present. */
  lemma {:induction false} SomesCount<T>(s: seq<Option<T>>, v: T)
    ensures multiset(Somes(s))[v] == multiset(s)[Some(v)]
    decreases |s|
  {
    if |s| > 0 {
      SomesCount(s[1..], v);
      assert s == [s[0]] + s[1..];
      assert multiset(s)[Some(v)] == multiset([s[0]])[Some(v)] + multiset(s[1..])[Some(v)];
      if s[0].Some? {
        assert Somes(s) == [s[0].value] + Somes(s[1..]);
      } else {
        assert Somes(s) == Somes(s[1..]);
      }
    }
  }

  lemma SomesSingle<T>(o: Option<T>)
    ensures Somes([o]) == if o.Some? then [o.value] else []
  {
    assert [o][1..] == [];
  }

  /** The `i`-th element, or 0 when the sequence is too short. */
  function Nth(s: seq<nat>, i: nat): nat {
    if i < |s| then s[i] else 0
  }
}

=== FILE: keywords.dfy ===
/** Keyword extraction (`extractKeywords`, app.js:213-240): the text is
    lower-cased, every character outside `\w`, white space and the Polish
    letters becomes a blank, the text is split on white space, tokens of at
    most three characters, stop words and numbers are dropped, and the ten
    most frequent remaining tokens are returned, most frequent first.

    Ties: `Object.keys` lists a plain object's keys in insertion order (no
    key here is an array index, since numbers are filtered out), and
    `Array.prototype.sort` is stable, so equal counts stay in order of first
    appearance. */
module Keywords {
  import opened Basics
  import opened Text
  import Ranking

  /** The stop-word list, duplicates and all. */
  const StopWords: seq<string> := [
    "i", "a", "w", "na", "do", "z", "ze", "się", "że", "przez", "dla", "od", "o", "po", "przy",
    "bardzo", "tylko", "oraz", "także", "również", "jest", "są", "będzie", "może", "można",
    "tym", "tej", "ten", "ta", "to", "te", "ich", "jego", "jej", "jego", "jako", "oraz"
  ]

  const MaxKeywords: nat := 10

  /** The characters a token can be made of after normalisation. */
  predicate IsKeywordChar(c: char) {
    ('a' <= c <= 'z') || IsDigit(c) || c == '_' || c in PolishLetters
  }

  /** One character of `text.toLowerCase().replace(/[^\w\sąęćłńóśźż]/g, ' ')`. */
  function NormalizeChar(c: char): char {
    var l := Lower(c);
    if IsWordChar(l) || IsSpace(l) || l in PolishLetters then l else ' '
  }

  /** The normalised text: every character that lower-cases to white space
      or to a keyword character is lower-cased, every other one becomes a
      blank, so only white space and keyword characters remain. */
  function Normalize(text: string): (r: string)
    ensures |r| == |text|
    ensures forall i :: 0 <= i < |r| ==> IsSpace(r[i]) || IsKeywordChar(r[i])
    ensures forall i :: 0 <= i < |text| ==>
              if IsSpace(Lower(text[i])) || IsKeywordChar(Lower(text[i])) then r[i] == Lower(text[i]) else r[i] == ' '
  {
    seq(|text|, i requires 0 <= i < |text| => NormalizeChar(text[i]))
  }

  /** `/^\d+$/.test(w)`. */
  predicate IsNumber(w: string) {
    |w| > 0 && AllDigits(w)
  }

  /** The token filter: longer than three characters, not a stop word, not
      a number. */
  predicate Qualifies(w: string) {
    |w| > 3 && w !in StopWords && !IsNumber(w)
  }

  /** The tokens that are counted, in text order, repetitions included. */
  function Candidates(text: string): (ws: seq<string>)
    ensures forall i :: 0 <= i < |ws| ==> Qualifies(ws[i])
    ensures forall w :: multiset(ws)[w] == if Qualifies(w) then multiset(Split(Normalize(text), Whitespace))[w] else 0
  {
    var tokens := Split(Normalize(text), Whitespace);
    forall w ensures multiset(Filter(tokens, Qualifies))[w] == if Qualifies(w) then multiset(tokens)[w] else 0 {
      FilterCount(tokens, Qualifies, w);
    }
    Filter(tokens, Qualifies)
  }

  /** Tokens are counted in text order: the tokens of two texts joined by a
      character that normalises to white space (white space itself, or
      punctuation such as a comma) are those of the first followed by those
      of the second. */
  lemma CandidatesAppend(a: string, c: char, b: string)
    requires IsSpace(NormalizeChar(c))
    ensures Candidates(a + [c] + b) == Candidates(a) + Candidates(b)
  {
    assert Normalize(a + [c] + b) == Normalize(a) + [NormalizeChar(c)] + Normalize(b);
    SplitAppend(Normalize(a), NormalizeChar(c), Normalize(b), Whitespace);
    FilterAppend(Split(Normalize(a), Whitespace), Split(Normalize(b), Whitespace), Qualifies);
  }

  lemma KeywordCharIsLower(c: char)
    requires IsKeywordChar(c)
    ensures Lower(c) == c
  {
  }

  /** Every piece of the normalised text is made of keyword characters. */
  lemma NormalizedPiece(text: string, w: string)
    requires w in Split(Normalize(text), Whitespace)
    ensures forall k :: 0 <= k < |w| ==> IsKeywordChar(w[k])
  {
    var n := Normalize(text);
    var pieces := Split(n, Whitespace);
    var i :| 0 <= i < |pieces| && pieces[i] == w;
    forall k | 0 <= k < |w| ensures IsKeywordChar(w[k]) {
      SplitChars(n, Whitespace, i, k);
      assert !Separates(Whitespace, w[k]);
    }
  }

  /** Every counted token is made of lower-case letters, digits and
      underscores, so lower-casing it changes nothing. */
  lemma CandidatesAreLowerCase(text: string)
    ensures forall w :: w in Candidates(text) ==> IsLowerCase(w)
  {
    forall w | w in Candidates(text) ensures IsLowerCase(w) {
      NormalizedPiece(text, w);
      forall k | 0 <= k < |w| ensures LowerStr(w)[k] == w[k] {
        KeywordCharIsLower(w[k]);
      }
    }
  }

  /** The position of the first occurrence of `w`. */
  function FirstIndex(ws: seq<string>, w: string): (i: nat)
    requires w in ws
    ensures i < |ws| && ws[i] == w
    ensures forall k :: 0 <= k < i ==> ws[k] != w
  {
    if ws[0] == w then 0 else 1 + FirstIndex(ws[1..], w)
  }

  lemma FirstIndexExtend(ws: seq<string>, w: string, last: string)
    requires w in ws
    ensures FirstIndex(ws + [last], w) == FirstIndex(ws, w)
  {
    var i := FirstIndex(ws, w);
    var j := FirstIndex(ws + [last], w);
    assert (ws + [last])[i] == w;
  }

  /** The distinct tokens in order of first appearance: the keys of the
      source's `wordCount` object. */
  function Distinct(ws: seq<string>): (d: seq<string>)
    ensures NoDuplicates(d)
    ensures forall w :: w in d <==> w in ws
    ensures forall i, j :: 0 <= i < j < |d| ==> FirstIndex(ws, d[i]) < FirstIndex(ws, d[j])
    decreases |ws|
  {
    if |ws| == 0 then []
    else
      var prefix := ws[..|ws| - 1];
      var last := ws[|ws| - 1];
      assert ws == prefix + [last];
      var d := Distinct(prefix);
      forall w | w in prefix ensures FirstIndex(ws, w) == FirstIndex(prefix, w) {
        FirstIndexExtend(prefix, w, last);
      }
      if last in d then d
      else
        assert FirstIndex(ws, last) == |ws| - 1;
        var r := d + [last];
        forall i, j | 0 <= i < j < |r| ensures FirstIndex(ws, r[i]) < FirstIndex(ws, r[j]) {
          assert r[i] == d[i];
          if j < |d| { assert r[j] == d[j]; }
        }
        r
  }

  /** How often `w` occurs among the counted tokens of the text. */
  function Frequency(ws: seq<string>, w: string): nat {
    multiset(ws)[w]
  }

  /** Keyword `a` ranks above keyword `b`: more frequent, or as frequent and
      seen first. */
  predicate Outranks(ws: seq<string>, a: string, b: string)
    requires a in ws && b in ws
  {
    Frequency(ws, a) > Frequency(ws, b)
    || (Frequency(ws, a) == Frequency(ws, b) && FirstIndex(ws, a) < FirstIndex(ws, b))
  }

  function Counts(ws: seq<string>, d: seq<string>): (c: seq<int>)
    ensures |c| == |d|
    ensures forall i :: 0 <= i < |d| ==> c[i] == Frequency(ws, d[i])
  {
    seq(|d|, i requires 0 <= i < |d| => Frequency(ws, d[i]) as int)
  }

  lemma PrecedesOutranks(ws: seq<string>, a: nat, b: nat)
    requires a < |Distinct(ws)| && b < |Distinct(ws)|
    requires Ranking.Precedes(Counts(ws, Distinct(ws)), a, b)
    ensures Distinct(ws)[a] in ws && Distinct(ws)[b] in ws
    ensures Outranks(ws, Distinct(ws)[a], Distinct(ws)[b])
  {
  }

  /** The tokens at the given positions of the distinct list. */
  function Pick(d: seq<string>, top: seq<nat>): (r: seq<string>)
    requires forall j :: 0 <= j < |top| ==> top[j] < |d|
    ensures |r| == |top|
    ensures forall j :: 0 <= j < |top| ==> r[j] == d[top[j]]
  {
    seq(|top|, j requires 0 <= j < |top| => d[top[j]])
  }

  function TopOf(ws: seq<string>): (top: seq<nat>)
    ensures Ranking.SortedDesc(Counts(ws, Distinct(ws)), top)
    ensures |top| <= MaxKeywords
    ensures forall x :: 0 <= x < |Distinct(ws)| && x !in top ==>
              |top| == MaxKeywords && forall j :: 0 <= j < |top| ==> Ranking.Precedes(Counts(ws, Distinct(ws)), top[j], x)
  {
    Ranking.TopPositions(Counts(ws, Distinct(ws)), MaxKeywords)
  }

  lemma RankSorted(ws: seq<string>)
    ensures var r := Pick(Distinct(ws), TopOf(ws));
            && NoDuplicates(r)
            && (forall i :: 0 <= i < |r| ==> r[i] in ws)
            && forall i, j :: 0 <= i < j < |r| ==> Outranks(ws, r[i], r[j])
  {
    var d := Distinct(ws);
    var top := TopOf(ws);
    var r := Pick(d, top);
    forall i, j | 0 <= i < j < |r| ensures r[i] != r[j] && Outranks(ws, r[i], r[j]) {
      PrecedesOutranks(ws, top[i], top[j]);
    }
  }

  lemma RankComplete(ws: seq<string>)
    ensures var r := Pick(Distinct(ws), TopOf(ws));
            forall w :: w in ws && w !in r ==>
              |r| == MaxKeywords && forall i :: 0 <= i < |r| ==> w in ws && Outranks(ws, r[i], w)
  {
    var d := Distinct(ws);
    var counts := Counts(ws, d);
    var top := TopOf(ws);
    var r := Pick(d, top);
    forall w | w in ws && w !in r
      ensures |r| == MaxKeywords && forall i :: 0 <= i < |r| ==> Outranks(ws, r[i], w)
    {
      var x :| 0 <= x < |d| && d[x] == w;
      assert x !in top;
      forall i | 0 <= i < |r| ensures Outranks(ws, r[i], w) {
        assert Ranking.Precedes(counts, top[i], x);
        PrecedesOutranks(ws, top[i], x);
      }
    }
  }

  /** The ten best-ranked distinct tokens of `ws`: count the tokens, sort
      the distinct ones by count, keep the first ten. */
  function Rank(ws: seq<string>): (r: seq<string>)
    ensures |r| <= MaxKeywords
    ensures NoDuplicates(r)
    ensures forall i :: 0 <= i < |r| ==> r[i] in ws
    ensures forall i, j :: 0 <= i < j < |r| ==> Outranks(ws, r[i], r[j])
    ensures forall w :: w in ws && w !in r ==>
              |r| == MaxKeywords && forall i :: 0 <= i < |r| ==> Outranks(ws, r[i], w)
  {
    RankSorted(ws);
    RankComplete(ws);
    Pick(Distinct(ws), TopOf(ws))
  }

  /** `extractKeywords(text)`: at most ten distinct counted tokens, ordered
      by frequency and then by first appearance, and no counted token left
      out ranks above one that was kept. */
  function ExtractKeywords(text: string): (r: seq<string>)
    ensures |r| <= MaxKeywords
    ensures NoDuplicates(r)
    ensures forall i :: 0 <= i < |r| ==> r[i] in Candidates(text) && Qualifies(r[i])
    ensures forall i, j :: 0 <= i < j < |r| ==> Outranks(Candidates(text), r[i], r[j])
    ensures forall w :: w in Candidates(text) && w !in r ==>
              |r| == MaxKeywords && forall i :: 0 <= i < |r| ==> Outranks(Candidates(text), r[i], w)
    ensures forall i :: 0 <= i < |r| ==> IsLowerCase(r[i])
  {
    CandidatesAreLowerCase(text);
    Rank(Candidates(text))
  }
}

=== FILE: mindmap.dfy ===
/** The mind-map builder (`generateMindMapFromText`, app.js:191-211, with
    `findRelatedSentences`, `extractKeyPhrase` and `capitalizeFirst`): the
    most frequent keyword is the central topic, the next five are branches,
    and each branch lists key phrases of the first four sentences that
    mention its keyword. */
module MindMap {
  import opened Basics
  import opened Text
  import opened Segment
  import opened Keywords

  datatype Branch = Branch(topic: string, subtopics: seq<string>)

  datatype MindMap = MindMap(central: string, branches: seq<Branch>)

  /** The central topic used when the text yields no keyword. */
  const DefaultTopic: string := "Główny temat"

  const MaxBranches: nat := 5
  const MaxRelated: nat := 5
  const MaxSubtopics: nat := 4

  /** `sentence.toLowerCase().includes(keyword.toLowerCase())`. */
  predicate Mentions(sentence: string, keyword: string) {
    Contains(LowerStr(sentence), LowerStr(keyword))
  }

  /** Every sentence that mentions the keyword, in document order. */
  function Related(keyword: string, sentences: seq<string>): (r: seq<string>)
    ensures forall i :: 0 <= i < |r| ==> r[i] in sentences && Mentions(r[i], keyword)
    ensures forall s :: s in sentences && Mentions(s, keyword) ==> s in r
    ensures |r| == 0 <==> forall k :: 0 <= k < |sentences| ==> !Mentions(sentences[k], keyword)
    ensures forall s :: multiset(r)[s] == if Mentions(s, keyword) then multiset(sentences)[s] else 0
  {
    forall s ensures multiset(Filter(sentences, s => Mentions(s, keyword)))[s] ==
                     if Mentions(s, keyword) then multiset(sentences)[s] else 0 {
      FilterCount(sentences, s => Mentions(s, keyword), s);
    }
    Filter(sentences, s => Mentions(s, keyword))
  }

  /** Related sentences keep document order: those of two runs of sentences
      are the first run's followed by the second's. */
  lemma RelatedAppend(keyword: string, a: seq<string>, b: seq<string>)
    ensures Related(keyword, a + b) == Related(keyword, a) + Related(keyword, b)
  {
    FilterAppend(a, b, s => Mentions(s, keyword));
  }

  /** `findRelatedSentences`: the first five sentences mentioning the keyword. */
  function FindRelatedSentences(keyword: string, sentences: seq<string>): (r: seq<string>)
    ensures |r| == Min(MaxRelated, |Related(keyword, sentences)|)
    ensures forall i :: 0 <= i < |r| ==> r[i] == Related(keyword, sentences)[i]
  {
    Take(Related(keyword, sentences), MaxRelated)
  }

  /** `extractKeyPhrase`: the trimmed sentence when it has at most six
      blank-separated words, otherwise its first three words. The source's
      fallback (`words.slice(0, 4).join(' ') + '...'`) applies only when
      the first three-word phrase is empty, which a join of three words
      never is. */
  function ExtractKeyPhrase(sentence: string): (r: string)
    ensures |r| <= |Trim(sentence)| && Trim(sentence)[..|r|] == r
    ensures |Split(Trim(sentence), Blank)| <= 6 ==> r == Trim(sentence)
    ensures |Split(Trim(sentence), Blank)| > 6 ==>
              |r| >= 2 && Split(r, Blank) == Split(Trim(sentence), Blank)[..3]
  {
    var t := Trim(sentence);
    var words := Split(t, Blank);
    if |words| <= 6 then t
    else
      JoinSplit(t);
      JoinPrefix(words, 3, " ");
      JoinLength(words[..3], " ");
      SplitJoin(words[..3], ' ', Blank);
      Join(words[..3], " ")
  }

  /** One branch: the capitalised keyword and the key phrases of the first
      four sentences that mention it, in document order. A keyword no
      sentence mentions gets a branch with no subtopics. */
  function BuildBranch(keyword: string, sentences: seq<string>): (b: Branch)
    ensures b.topic == Capitalize(keyword)
    ensures |b.subtopics| == Min(MaxSubtopics, |Related(keyword, sentences)|)
    ensures forall j :: 0 <= j < |b.subtopics| ==>
              b.subtopics[j] == ExtractKeyPhrase(Related(keyword, sentences)[j])
    ensures |b.subtopics| == 0 <==> forall k :: 0 <= k < |sentences| ==> !Mentions(sentences[k], keyword)
  {
    var related := Take(FindRelatedSentences(keyword, sentences), MaxSubtopics);
    Branch(Capitalize(keyword), seq(|related|, j requires 0 <= j < |related| => ExtractKeyPhrase(related[j])))
  }

  lemma DefaultTopicCapitalized()
    ensures Capitalize(DefaultTopic) == DefaultTopic
  {
    assert Upper(DefaultTopic[0]) == DefaultTopic[0];
    assert DefaultTopic == [DefaultTopic[0]] + DefaultTopic[1..];
  }

  /** `m` is the mind map of the ranked `keywords` over `sentences`: the top
      keyword capitalised in the centre (or the default topic), then one
      branch for each of the next five keywords, in rank order. */
  predicate Shaped(m: MindMap, keywords: seq<string>, sentences: seq<string>) {
    && m.central == (if |keywords| == 0 then DefaultTopic else Capitalize(keywords[0]))
    && |m.branches| == (if |keywords| <= 1 then 0 else Min(MaxBranches, |keywords| - 1))
    && forall i :: 0 <= i < |m.branches| ==> m.branches[i] == BuildBranch(keywords[i + 1], sentences)
  }

  /** The mind map for a ranked keyword list and the candidate sentences. */
  function BuildMindMap(keywords: seq<string>, sentences: seq<string>): (m: MindMap)
    ensures Shaped(m, keywords, sentences)
  {
    var mainTopic := if |keywords| > 0 then keywords[0] else DefaultTopic;
    var others := if |keywords| <= 1 then [] else Take(keywords[1..], MaxBranches);
    DefaultTopicCapitalized();
    MindMap(Capitalize(mainTopic),
            seq(|others|, i requires 0 <= i < |others| => BuildBranch(others[i], sentences)))
  }

  /** `generateMindMapFromText`: central topic, at most five branches in
      keyword rank order, each built from the sentences longer than twenty
      characters. */
  function GenerateMindMap(text: string): (m: MindMap)
    ensures Shaped(m, ExtractKeywords(text), Sentences(text, 20))
  {
    BuildMindMap(ExtractKeywords(text), Sentences(text, 20))
  }
}

=== FILE: progress.dfy ===
/** Gamification (app.js:27-35, 710-719, 760-792): the grade predicted from
    a quiz percentage, the level reached with a number of points and the
    badges earned by meeting requirements. The popups and the display
    refresh that accompany these updates are not modelled. */
module Progress {
  import opened Basics

  /** How many of `thresholds` the value `x` reaches. */
  function Reached(thresholds: seq<int>, x: int): (n: nat)
    ensures n <= |thresholds|
  {
    if |thresholds| == 0 then 0
    else (if thresholds[0] <= x then 1 else 0) + Reached(thresholds[1..], x)
  }

  /** Reaching more is monotone in the value. */
  lemma {:induction false} ReachedMonotone(thresholds: seq<int>, x: int, y: int)
    requires x <= y
    ensures Reached(thresholds, x) <= Reached(thresholds, y)
    decreases |thresholds|
  {
    if |thresholds| > 0 {
      ReachedMonotone(thresholds[1..], x, y);
    }
  }

  /** On ascending thresholds the value reaches exactly a prefix of them. */
  lemma {:induction false} ReachedSorted(thresholds: seq<int>, x: int)
    requires forall i, j :: 0 <= i < j < |thresholds| ==> thresholds[i] < thresholds[j]
    ensures var n := Reached(thresholds, x);
            && (forall i :: 0 <= i < n ==> thresholds[i] <= x)
            && (forall i :: n <= i < |thresholds| ==> x < thresholds[i])
    decreases |thresholds|
  {
    if |thresholds| > 0 {
      ReachedSorted(thresholds[1..], x);
      forall i | 0 < i < |thresholds| ensures thresholds[i] == thresholds[1..][i - 1] { }
    }
  }

  /** The position of `x` in `s`, or `|s|` when it is absent. */
  function IndexIn(s: seq<string>, x: string): (r: nat)
    ensures r <= |s|
    ensures r < |s| ==> s[r] == x
    ensures forall k :: 0 <= k < r ==> s[k] != x
  {
    if |s| == 0 || s[0] == x then 0 else 1 + IndexIn(s[1..], x)
  }

  // ---------------------------------------------------------------------------
  // Grades

  /** The grade boundaries, lowest first. */
  const GradeThresholds: seq<int> := [35, 45, 55, 65, 75, 85, 95]

  /** The grades, worst first: grade `i` needs exactly `i` boundaries. */
  const Grades: seq<string> := [
    "1.0 (Niedostateczny)", "2.0 (Dostateczny)", "2.5 (Dostateczny+)", "3.0 (Dobry)",
    "3.5 (Dobry+)", "4.0 (Bardzo dobry)", "4.5 (Bardzo dobry+)", "5.0 (Celujący)"]

  /** `getGradeFromPercentage`: the first boundary from the top that the
      percentage reaches decides the grade. */
  function GradeFromPercentage(percentage: int): (r: string)
    ensures r in Grades
    ensures r == Grades[0] <==> percentage < 35
    ensures r == Grades[7] <==> percentage >= 95
  {
    if percentage >= 95 then "5.0 (Celujący)"
    else if percentage >= 85 then "4.5 (Bardzo dobry+)"
    else if percentage >= 75 then "4.0 (Bardzo dobry)"
    else if percentage >= 65 then "3.5 (Dobry+)"
    else if percentage >= 55 then "3.0 (Dobry)"
    else if percentage >= 45 then "2.5 (Dostateczny+)"
    else if percentage >= 35 then "2.0 (Dostateczny)"
    else "1.0 (Niedostateczny)"
  }

  /** The grade is the one whose rank is the number of boundaries reached. */
  lemma GradeByThresholds(percentage: int)
    ensures GradeFromPercentage(percentage) == Grades[Reached(GradeThresholds, percentage)]
  {
    ReachedSorted(GradeThresholds, percentage);
    var t := GradeThresholds;
    assert t[0] == 35 && t[1] == 45 && t[2] == 55 && t[3] == 65 && t[4] == 75 && t[5] == 85 && t[6] == 95;
  }

  /** A higher percentage never predicts a lower grade. */
  lemma GradeMonotone(p: int, q: int)
    requires p <= q
    ensures IndexIn(Grades, GradeFromPercentage(p)) <= IndexIn(Grades, GradeFromPercentage(q))
  {
    GradeByThresholds(p);
    GradeByThresholds(q);
    ReachedMonotone(GradeThresholds, p, q);
    GradesRanked();
  }

  lemma GradesRanked()
    ensures forall i :: 0 <= i < |Grades| ==> IndexIn(Grades, Grades[i]) == i
  {
    assert NoDuplicates(Grades);
  }

  // ---------------------------------------------------------------------------
  // Levels

  const LevelThresholds: seq<int> := [200, 500, 1000]

  /** `this.levels`, lowest first: level `i` needs exactly `i` thresholds. */
  const Levels: seq<string> := ["Początkujący", "Średniozaawansowany", "Zaawansowany", "Ekspert"]

  /** The level chosen in `updateLevel`. */
  function LevelFor(points: int): (r: string)
    ensures r in Levels
    ensures r == Levels[0] <==> points < 200
    ensures r == Levels[3] <==> points >= 1000
  {
    if points >= 1000 then "Ekspert"
    else if points >= 500 then "Zaawansowany"
    else if points >= 200 then "Średniozaawansowany"
    else "Początkujący"
  }

  lemma LevelByThresholds(points: int)
    ensures LevelFor(points) == Levels[Reached(LevelThresholds, points)]
  {
    ReachedSorted(LevelThresholds, points);
    var t := LevelThresholds;
    assert t[0] == 200 && t[1] == 500 && t[2] == 1000;
  }

  lemma LevelsRanked()
    ensures forall i :: 0 <= i < |Levels| ==> IndexIn(Levels, Levels[i]) == i
  {
    assert NoDuplicates(Levels);
  }

  /** More points never mean a lower level. */
  lemma LevelMonotone(p: int, q: int)
    requires p <= q
    ensures IndexIn(Levels, LevelFor(p)) <= IndexIn(Levels, LevelFor(q))
  {
    LevelByThresholds(p);
    LevelByThresholds(q);
    ReachedMonotone(LevelThresholds, p, q);
    LevelsRanked();
  }

  // ---------------------------------------------------------------------------
  // User progress

  datatype UserProgress = UserProgress(
    points: int,
    level: string,
    badges: seq<string>,
    documentsProcessed: nat,
    completedQuizzes: nat)

  /** The progress of a new user. */
  const Initial: UserProgress := UserProgress(0, "Początkujący", [], 0, 0)

  /** The level agrees with the points. */
  predicate Consistent(u: UserProgress) {
    u.level == LevelFor(u.points)
  }

  /** `updateLevel`: the level is recomputed from the points alone; nothing
      else changes. */
  function UpdateLevel(u: UserProgress): (r: UserProgress)
    ensures r.level == Levels[Reached(LevelThresholds, u.points)]
    ensures r.points == u.points && r.badges == u.badges
    ensures r.documentsProcessed == u.documentsProcessed && r.completedQuizzes == u.completedQuizzes
  {
    LevelByThresholds(u.points);
    var newLevel := LevelFor(u.points);
    if newLevel != u.level then u.(level := newLevel) else u
  }

  /** `addPoints`: the points grow by `n` and the level follows them. */
  function AddPoints(u: UserProgress, n: int): (r: UserProgress)
    ensures r.points == u.points + n
    ensures Consistent(r)
    ensures r.badges == u.badges
    ensures r.documentsProcessed == u.documentsProcessed && r.completedQuizzes == u.completedQuizzes
  {
    UpdateLevel(u.(points := u.points + n))
  }

  /** Points are only ever added, so a consistent user never drops a level. */
  lemma AddPointsNeverDemotes(u: UserProgress, n: nat)
    requires Consistent(u)
    ensures IndexIn(Levels, u.level) <= IndexIn(Levels, AddPoints(u, n).level)
  {
    LevelMonotone(u.points, u.points + n);
  }

  lemma InitialConsistent()
    ensures Consistent(Initial) && IndexIn(Levels, Initial.level) == 0
  {
  }

  // ---------------------------------------------------------------------------
  // Badges

  datatype Badge = Badge(name: string, description: string, icon: string, requirement: string)

  /** `this.badges`. */
  const Catalogue: seq<Badge> := [
    Badge("PDF Master", "Przetworzył pierwszy dokument PDF", "📄", "uploadPdf"),
    Badge("Mind Map Creator", "Stworzył pierwszą mapę myśli", "🧠", "createMindMap"),
    Badge("Quiz Champion", "Uzyskał wynik powyżej 80%", "🏆", "score80"),
    Badge("Perfectionist", "Uzyskał 100% w quizie", "⭐", "perfectScore"),
    Badge("Streaker", "Uczył się przez 7 dni z rzędu", "🔥", "streak7")]

  /** `this.badges.find(...)`: the first badge for the requirement that has
      not been earned yet. */
  function FindBadge(catalogue: seq<Badge>, requirement: string, earned: seq<string>): (r: Option<Badge>)
    ensures r.Some? ==> r.value in catalogue && r.value.requirement == requirement && r.value.name !in earned
    ensures r.None? <==> forall b :: b in catalogue && b.requirement == requirement ==> b.name in earned
    ensures r.Some? ==> exists i :: 0 <= i < |catalogue| && catalogue[i] == r.value
                          && forall k :: 0 <= k < i ==> !Awardable(catalogue[k], requirement, earned)
  {
    if |catalogue| == 0 then None
    else if Awardable(catalogue[0], requirement, earned) then Some(catalogue[0])
    else
      var r := FindBadge(catalogue[1..], requirement, earned);
      assert forall b :: b in catalogue <==> b == catalogue[0] || b in catalogue[1..];
      assert r.Some? ==> exists i :: 0 <= i < |catalogue| && catalogue[i] == r.value
                           && forall k :: 0 <= k < i ==> !Awardable(catalogue[k], requirement, earned) by {
        if r.Some? {
          var i :| 0 <= i < |catalogue[1..]| && catalogue[1..][i] == r.value
                   && forall k :: 0 <= k < i ==> !Awardable(catalogue[1..][k], requirement, earned);
          assert catalogue[i + 1] == r.value;
          forall k | 0 <= k < i + 1 ensures !Awardable(catalogue[k], requirement, earned) {
            if k > 0 {
              assert catalogue[k] == catalogue[1..][k - 1];
            }
          }
        }
      }
      r
  }

  /** A badge the requirement can award: it is for that requirement and not
      earned yet. */
  predicate Awardable(b: Badge, requirement: string, earned: seq<string>) {
    b.requirement == requirement && b.name !in earned
  }

  /** `checkBadgeRequirement`: the earned list only grows, by at most one
      new name for the requirement, and never repeats a name. */
  function CheckBadgeRequirement(u: UserProgress, requirement: string): (r: UserProgress)
    ensures r.points == u.points && r.level == u.level
    ensures r.documentsProcessed == u.documentsProcessed && r.completedQuizzes == u.completedQuizzes
    ensures u.badges <= r.badges && |r.badges| <= |u.badges| + 1
    ensures |r.badges| > |u.badges| ==>
              var b := r.badges[|u.badges|];
              b !in u.badges && exists c :: c in Catalogue && c.requirement == requirement && c.name == b
    ensures r.badges == u.badges <==>
              forall c :: c in Catalogue && c.requirement == requirement ==> c.name in u.badges
    ensures NoDuplicates(u.badges) ==> NoDuplicates(r.badges)
  {
    match FindBadge(Catalogue, requirement, u.badges)
    case None => u
    case Some(b) =>
      var r := u.(badges := u.badges + [b.name]);
      assert r.badges[|u.badges|] == b.name;
      r
  }

  /** Checking requirements one after another, as the application does over
      a session. */
  function CheckAll(u: UserProgress, requirements: seq<string>): UserProgress
    decreases |requirements|
  {
    if |requirements| == 0 then u
    else CheckAll(CheckBadgeRequirement(u, requirements[0]), requirements[1..])
  }

  /** Over any run of checks, earned badges stay earned in their order, no
      name is earned twice, and at most one badge is earned per check. */
  lemma {:induction false} BadgesAccumulate(u: UserProgress, requirements: seq<string>)
    requires NoDuplicates(u.badges)
    ensures var r := CheckAll(u, requirements);
            && u.badges <= r.badges
            && NoDuplicates(r.badges)
            && |r.badges| <= |u.badges| + |requirements|
    decreases |requirements|
  {
    if |requirements| > 0 {
      var v := CheckBadgeRequirement(u, requirements[0]);
      BadgesAccumulate(v, requirements[1..]);
    }
  }
}

=== FILE: quiz.dfy ===
/** The quiz synthesiser (`generateQuizFromText` and its question builders,
    app.js:300-415, with `shuffleArray`, app.js:751-757). Question slots cycle
    through multiple choice, true/false and fill-in-the-blank; a builder that
    finds too little material yields no question and its slot is skipped.

    The source's calls to `Math.random` are inputs here. Each slot receives a
    `Draw`; a random index below m is modelled as an arbitrary natural number
    taken modulo m, so every outcome the source can produce is reachable and
    no other. */
module Quiz {
  import opened Basics
  import opened Text
  import opened Segment
  import opened Keywords

  datatype Kind = MultipleChoice | TrueFalse | FillBlank

  datatype Question = Question(
    question: string,
    options: seq<string>,
    correct: int,
    kind: Kind,
    explanation: string)

  /** The random values one slot consumes: the target word of a multiple
      choice question (`Math.floor(Math.random() * words.length)`), the
      Fisher-Yates draws of its shuffle, the coin of a true/false question
      (`Math.random() > 0.5`) and the rewrite that falsifies it. */
  datatype Draw = Draw(target: nat, swaps: seq<nat>, coin: bool, rewrite: nat)

  const MaxSlots: nat := 12
  const MaxQuestions: nat := 10
  const Gap: string := "____"
  const TrueFalseOptions: seq<string> := ["Prawda", "Fałsz"]
  const TrueFalsePrefix: string := "Prawda czy fałsz: "

  /** The invariant every generated question keeps: `correct` indexes an
      option, and each kind has its own option shape. */
  predicate WellFormed(q: Question) {
    && 0 <= q.correct < |q.options|
    && match q.kind
       case MultipleChoice => |q.options| <= 4
       case TrueFalse => q.options == TrueFalseOptions
       case FillBlank => |q.options| == 4 && q.correct == 0
  }

  /** `Math.floor(Math.random() * n)` for the draw `x`: an index below `n`.
      Every index below `n` is the value of some draw. */
  function Below(x: nat, n: nat): (r: nat)
    requires n > 0
    ensures r < n
    ensures x < n ==> r == x
  {
    x % n
  }

  // ---------------------------------------------------------------------------
  // Shuffling

  /** `[a[i], a[j]] = [a[j], a[i]]`. */
  function Swap<T>(a: seq<T>, i: nat, j: nat): (r: seq<T>)
    requires i < |a| && j < |a|
    ensures |r| == |a| && multiset(r) == multiset(a)
    ensures r[i] == a[j] && r[j] == a[i]
    ensures forall k :: 0 <= k < |a| && k != i && k != j ==> r[k] == a[k]
  {
    a[i := a[j]][j := a[i]]
  }

  /** The iterations of `shuffleArray` from index `i` down to 1; the
      iteration for index `i` swaps it with an index below `i + 1`, drawn
      from `swaps[|a| - 1 - i]`. */
  function ShuffleDown<T>(a: seq<T>, i: nat, swaps: seq<nat>): (r: seq<T>)
    requires i < |a|
    ensures |r| == |a| && multiset(r) == multiset(a)
    decreases i
  {
    if i == 0 then a
    else ShuffleDown(Swap(a, i, Below(Nth(swaps, |a| - 1 - i), i + 1)), i - 1, swaps)
  }

  /** `shuffleArray`: a Fisher-Yates shuffle, which only permutes. */
  function Shuffle<T>(a: seq<T>, swaps: seq<nat>): (r: seq<T>)
    ensures |r| == |a| && multiset(r) == multiset(a)
  {
    if |a| == 0 then a else ShuffleDown(a, |a| - 1, swaps)
  }

  /** `array.indexOf(x)`: the first position of `x`, or -1. */
  function Position(s: seq<string>, x: string): (r: int)
    ensures -1 <= r < |s|
    ensures r == -1 <==> x !in s
    ensures r >= 0 ==> s[r] == x && forall k :: 0 <= k < r ==> s[k] != x
  {
    if |s| == 0 then -1
    else if s[0] == x then 0
    else
      var p := Position(s[1..], x);
      assert x in s[1..] <==> x in s;
      if p == -1 then -1 else p + 1
  }

  // ---------------------------------------------------------------------------
  // Multiple choice (app.js:334-357)

  /** The blank-separated words of more than four characters. */
  function LongWords(sentence: string): (ws: seq<string>)
    ensures forall i :: 0 <= i < |ws| ==> |ws[i]| > 4 && ws[i] in Split(sentence, Blank)
    ensures forall w :: multiset(ws)[w] == if |w| > 4 then multiset(Split(sentence, Blank))[w] else 0
  {
    var words := Split(sentence, Blank);
    forall w ensures multiset(Filter(words, w => |w| > 4))[w] == if |w| > 4 then multiset(words)[w] else 0 {
      FilterCount(words, w => |w| > 4, w);
    }
    Filter(words, w => |w| > 4)
  }

  /** Long words keep sentence order: those of two parts joined by a blank
      are the first part's followed by the second's. */
  lemma LongWordsAppend(a: string, b: string)
    ensures LongWords(a + " " + b) == LongWords(a) + LongWords(b)
  {
    SplitAppend(a, ' ', b, Blank);
    FilterAppend(Split(a, Blank), Split(b, Blank), w => |w| > 4);
  }

  /** The keywords that may serve as distractors for `target`. */
  function OtherKeywords(keywords: seq<string>, target: string): (r: seq<string>)
    ensures forall i :: 0 <= i < |r| ==> r[i] in keywords && r[i] != LowerStr(target)
    ensures forall k :: k in keywords && k != LowerStr(target) ==> k in r
    ensures forall k :: multiset(r)[k] == if k != LowerStr(target) then multiset(keywords)[k] else 0
  {
    forall k ensures multiset(Filter(keywords, k => k != LowerStr(target)))[k] ==
                     if k != LowerStr(target) then multiset(keywords)[k] else 0 {
      FilterCount(keywords, k => k != LowerStr(target), k);
    }
    FilterMembers(keywords, k => k != LowerStr(target));
    Filter(keywords, k => k != LowerStr(target))
  }

  /** The distractor candidates keep keyword rank order. */
  lemma OtherKeywordsAppend(a: seq<string>, b: seq<string>, target: string)
    ensures OtherKeywords(a + b, target) == OtherKeywords(a, target) + OtherKeywords(b, target)
  {
    FilterAppend(a, b, k => k != LowerStr(target));
  }

  /** The first three other keywords, capitalised. */
  function Distractors(keywords: seq<string>, target: string): (d: seq<string>)
    ensures |d| == Min(3, |OtherKeywords(keywords, target)|)
    ensures forall j :: 0 <= j < |d| ==> d[j] == Capitalize(OtherKeywords(keywords, target)[j])
  {
    var others := Take(OtherKeywords(keywords, target), 3);
    seq(|others|, j requires 0 <= j < |others| => Capitalize(others[j]))
  }

  /** `[targetWord, ...distractors].slice(0, 4)`, shuffled. */
  function Options(target: string, keywords: seq<string>, swaps: seq<nat>): (o: seq<string>)
    ensures |o| <= 4 && target in o
    ensures multiset(o) == multiset([target] + Distractors(keywords, target))
  {
    var all := [target] + Distractors(keywords, target);
    assert Take(all, 4) == all;
    var o := Shuffle(Take(all, 4), swaps);
    assert target in multiset(o);
    o
  }

  /** `createMultipleChoiceQuestion`: `None` for fewer than five long words;
      otherwise the drawn long word is blanked at its first occurrence and
      offered among at most three capitalised keywords, in shuffled order,
      with `correct` pointing at it. */
  function CreateMultipleChoiceQuestion(sentence: string, keywords: seq<string>, draw: Draw): (r: Option<Question>)
    ensures r.None? <==> |LongWords(sentence)| < 5
    ensures r.Some? ==>
              var q := r.value;
              var words := LongWords(sentence);
              && q.kind == MultipleChoice && WellFormed(q)
              && q.options[q.correct] == words[Below(draw.target, |words|)]
              && q.options == Options(q.options[q.correct], keywords, draw.swaps)
              && q.question == "Uzupełnij zdanie: " + ReplaceFirst(sentence, q.options[q.correct], Gap)
  {
    var words := LongWords(sentence);
    if |words| < 5 then None
    else
      var target := words[Below(draw.target, |words|)];
      var options := Options(target, keywords, draw.swaps);
      var correct := Position(options, target);
      Some(Question(
        "Uzupełnij zdanie: " + ReplaceFirst(sentence, target, Gap),
        options,
        correct,
        MultipleChoice,
        "Prawidłowa odpowiedź to \"" + target + "\" zgodnie z treścią dokumentu."))
  }

  /** Capitalising is one-to-one on lower-case words. */
  lemma CapitalizeInjective(a: string, b: string)
    requires IsLowerCase(a) && IsLowerCase(b) && a != b
    ensures Capitalize(a) != Capitalize(b)
  {
    CapitalizeInvertible(a);
    CapitalizeInvertible(b);
  }

  /** The distractors differ from each other and from the target when the
      keywords are distinct and lower-case. */
  lemma DistractorsApart(target: string, keywords: seq<string>)
    requires NoDuplicates(keywords)
    requires forall i :: 0 <= i < |keywords| ==> IsLowerCase(keywords[i])
    ensures var d := Distractors(keywords, target);
            NoDuplicates(d) && forall j :: 0 <= j < |d| ==> d[j] != target
  {
    var others := OtherKeywords(keywords, target);
    var d := Distractors(keywords, target);
    assert NoDuplicates(others) by {
      FilterDistinct(keywords, k => k != LowerStr(target));
    }
    forall j | 0 <= j < |d| ensures d[j] != target {
      CapitalizeInvertible(others[j]);
    }
    forall i, j | 0 <= i < j < |d| ensures d[i] != d[j] {
      CapitalizeInjective(others[i], others[j]);
    }
  }

  /** The target and its distractors are pairwise different when the
      keywords are distinct and lower-case. */
  lemma CandidatesDistinct(target: string, keywords: seq<string>)
    requires NoDuplicates(keywords)
    requires forall i :: 0 <= i < |keywords| ==> IsLowerCase(keywords[i])
    ensures NoDuplicates([target] + Distractors(keywords, target))
  {
    DistractorsApart(target, keywords);
    ConsDistinct(target, Distractors(keywords, target));
  }

  /** The shuffled options keep the candidates apart. */
  lemma OptionsDistinct(target: string, keywords: seq<string>, swaps: seq<nat>)
    requires NoDuplicates(keywords)
    requires forall i :: 0 <= i < |keywords| ==> IsLowerCase(keywords[i])
    ensures NoDuplicates(Options(target, keywords, swaps))
  {
    CandidatesDistinct(target, keywords);
    PermutationDistinct([target] + Distractors(keywords, target), Options(target, keywords, swaps));
  }

  /** With distinct lower-case keywords, as keyword extraction produces, the
      options of a multiple choice question are all different. */
  lemma MultipleChoiceDistinct(sentence: string, keywords: seq<string>, draw: Draw)
    requires NoDuplicates(keywords)
    requires forall i :: 0 <= i < |keywords| ==> IsLowerCase(keywords[i])
    ensures var r := CreateMultipleChoiceQuestion(sentence, keywords, draw);
            r.Some? ==> NoDuplicates(r.value.options)
  {
    var r := CreateMultipleChoiceQuestion(sentence, keywords, draw);
    if r.Some? {
      var q := r.value;
      OptionsDistinct(q.options[q.correct], keywords, draw.swaps);
    }
  }

  // ---------------------------------------------------------------------------
  // True/false (app.js:359-381, 404-415)

  /** The run of digits at the front of `s`, read as a number. */
  function LeadingNumber(s: string): nat {
    var k := DigitRun(s);
    DecimalValue(s[..k])
  }

  /** `s.replace(/(\d+)/g, m => (parseInt(m) + 10).toString())`: every
      maximal run of digits becomes its value plus ten. */
  function IncrementNumbers(s: string): (r: string)
    ensures (forall k :: 0 <= k < |s| ==> !IsDigit(s[k])) ==> r == s
    ensures |r| == 0 || !IsDigit(r[0]) <==> |s| == 0 || !IsDigit(s[0])
    decreases |s|
  {
    if |s| == 0 then s
    else if IsDigit(s[0]) then
      var k := DigitRun(s);
      Decimal(LeadingNumber(s) + 10) + IncrementNumbers(s[k..])
    else
      assert [s[0]] + s[1..] == s;
      [s[0]] + IncrementNumbers(s[1..])
  }

  /** Incrementing changes every text that holds a digit: the first run of
      digits is replaced by a different numeral. */
  lemma {:induction false} IncrementNumbersChanges(s: string)
    requires exists k :: 0 <= k < |s| && IsDigit(s[k])
    ensures IncrementNumbers(s) != s
    decreases |s|
  {
    if !IsDigit(s[0]) {
      var k :| 0 <= k < |s| && IsDigit(s[k]);
      assert IsDigit(s[1..][k - 1]);
      IncrementNumbersChanges(s[1..]);
      assert [s[0]] + s[1..] == s;
    } else {
      var k := DigitRun(s);
      var d := Decimal(LeadingNumber(s) + 10);
      var x := IncrementNumbers(s[k..]);
      var run := s[..k];
      assert s == run + s[k..];
      DigitRunAppend(d, x);
      DigitRunAppend(run, s[k..]);
      if d + x == s {
        assert |d| == k;
        assert d == (d + x)[..k] == run;
        DecimalRoundTrip(LeadingNumber(s) + 10);
        assert false;
      }
    }
  }

  /** Any run of digits followed by text that does not start with a digit
      becomes the run's value plus ten, printed without leading zeros,
      followed by the rewritten text: "007 lat" becomes "17 lat". */
  lemma IncrementNumbersNumeral(d: string, rest: string)
    requires |d| > 0 && AllDigits(d)
    requires |rest| == 0 || !IsDigit(rest[0])
    ensures IncrementNumbers(d + rest) == Decimal(DecimalValue(d) + 10) + IncrementNumbers(rest)
  {
    var s := d + rest;
    DigitRunAppend(d, rest);
    assert s[..|d|] == d;
    assert s[|d|..] == rest;
    IncrementNumbersRun(s);
  }

  /** A text that starts with a digit: its leading run is rewritten and the
      scan resumes after the run. */
  lemma IncrementNumbersRun(s: string)
    requires |s| > 0 && IsDigit(s[0])
    ensures IncrementNumbers(s) == Decimal(LeadingNumber(s) + 10) + IncrementNumbers(s[DigitRun(s)..])
  {
  }

  /** A printed number followed by text that does not start with a digit
      becomes the number plus ten, followed by the rewritten text. */
  lemma IncrementNumbersPrinted(n: nat, rest: string)
    requires |rest| == 0 || !IsDigit(rest[0])
    ensures IncrementNumbers(Decimal(n) + rest) == Decimal(n + 10) + IncrementNumbers(rest)
  {
    IncrementNumbersNumeral(Decimal(n), rest);
    DecimalRoundTrip(n);
  }

  /** Text without digits passes through unchanged in front of the rest. */
  lemma {:induction false} IncrementNumbersText(x: string, rest: string)
    requires forall k :: 0 <= k < |x| ==> !IsDigit(x[k])
    ensures IncrementNumbers(x + rest) == x + IncrementNumbers(rest)
    decreases |x|
  {
    if |x| > 0 {
      var s := x + rest;
      assert s[1..] == x[1..] + rest;
      IncrementNumbersText(x[1..], rest);
      assert [x[0]] + (x[1..] + IncrementNumbers(rest)) == x + IncrementNumbers(rest);
    } else {
      assert x + rest == rest;
    }
  }

  /** A bare printed number becomes the number plus ten. */
  lemma IncrementNumbersDecimal(n: nat)
    ensures IncrementNumbers(Decimal(n)) == Decimal(n + 10)
  {
    IncrementNumbersPrinted(n, "");
    assert Decimal(n) + "" == Decimal(n);
    assert Decimal(n + 10) + "" == Decimal(n + 10);
  }

  /** The four rewrites of `modifySentenceToFalse`, chosen by
      `Math.floor(Math.random() * 4)`. */
  function ModifySentenceToFalse(sentence: string, choice: nat): (r: string)
    ensures Below(choice, 4) < 3 ==> |r| >= |sentence|
  {
    match Below(choice, 4)
    case 0 => ReplaceAll(sentence, "jest", "nie jest")
    case 1 => ReplaceAll(sentence, "ma", "nie ma")
    case 2 => ReplaceAll(sentence, "można", "nie można")
    case _ => IncrementNumbers(sentence)
  }

  /** The chosen rewrite finds something to rewrite. */
  predicate RewriteApplies(sentence: string, choice: nat) {
    match Below(choice, 4)
    case 0 => exists k :: 0 <= k < |sentence| && OccursAt(sentence, "jest", k)
    case 1 => exists k :: 0 <= k < |sentence| && OccursAt(sentence, "ma", k)
    case 2 => exists k :: 0 <= k < |sentence| && OccursAt(sentence, "można", k)
    case _ => exists k :: 0 <= k < |sentence| && IsDigit(sentence[k])
  }

  /** A rewrite changes the sentence exactly when its pattern occurs; the
      source has no fallback for a sentence none of them touches. */
  lemma ModifyChangesIff(sentence: string, choice: nat)
    ensures ModifySentenceToFalse(sentence, choice) != sentence <==> RewriteApplies(sentence, choice)
  {
    match Below(choice, 4)
    case 0 =>
      ReplaceAllUnchanged(sentence, "jest", "nie jest");
      ReplaceAllGrows(sentence, "jest", "nie jest");
    case 1 =>
      ReplaceAllUnchanged(sentence, "ma", "nie ma");
      ReplaceAllGrows(sentence, "ma", "nie ma");
    case 2 =>
      ReplaceAllUnchanged(sentence, "można", "nie można");
      ReplaceAllGrows(sentence, "można", "nie można");
    case _ =>
      if RewriteApplies(sentence, choice) {
        IncrementNumbersChanges(sentence);
      }
  }

  /** `createTrueFalseQuestion`: heads keeps the sentence and marks it true;
      tails rewrites it and marks it false. */
  function CreateTrueFalseQuestion(sentence: string, coin: bool, rewrite: nat): (q: Question)
    ensures q.kind == TrueFalse && WellFormed(q)
    ensures q.correct == 0 <==> coin
    ensures q.correct == 0 ==> q.question == TrueFalsePrefix + sentence
    ensures q.correct == 1 ==> q.question == TrueFalsePrefix + ModifySentenceToFalse(sentence, rewrite)
  {
    if coin then
      Question(TrueFalsePrefix + sentence, TrueFalseOptions, 0, TrueFalse,
               "To stwierdzenie jest prawdziwe według treści dokumentu.")
    else
      Question(TrueFalsePrefix + ModifySentenceToFalse(sentence, rewrite), TrueFalseOptions, 1, TrueFalse,
               "To stwierdzenie jest fałszywe - zostało zmodyfikowane w stosunku do treści dokumentu.")
  }

  /** The "jest" rewrite leaves a sentence without the letter j unchanged. */
  lemma NoJestUnchanged(s: string)
    requires forall k :: 0 <= k < |s| ==> s[k] != 'j'
    ensures ModifySentenceToFalse(s, 0) == s
  {
    forall k ensures !OccursAt(s, "jest", k) {
      if 0 <= k && k + 4 <= |s| {
        assert s[k..k + 4][0] == s[k] != 'j';
      }
    }
    ReplaceAllUnchanged(s, "jest", "nie jest");
  }

  /** A statement marked false can repeat the document word for word: any
      sentence without the letter j, falsified by the "jest" rewrite. */
  lemma FalseStatementCanBeUnchanged(sentence: string)
    requires forall k :: 0 <= k < |sentence| ==> sentence[k] != 'j'
    ensures var q := CreateTrueFalseQuestion(sentence, false, 0);
            q.correct == 1 && q.question == TrueFalsePrefix + sentence
  {
    NoJestUnchanged(sentence);
  }

  // ---------------------------------------------------------------------------
  // Fill in the blank (app.js:383-402)

  /** A long word whose lower-cased form contains some keyword. */
  predicate Important(w: string, keywords: seq<string>) {
    |w| > 4 && exists k :: k in keywords && Contains(LowerStr(w), k)
  }

  /** The important words of the sentence, in order. */
  function ImportantWords(sentence: string, keywords: seq<string>): (ws: seq<string>)
    ensures forall i :: 0 <= i < |ws| ==> Important(ws[i], keywords)
    ensures |ws| == 0 <==> NoneImportant(sentence, keywords)
    ensures |ws| > 0 ==> FirstImportant(sentence, keywords, ws[0])
  {
    var words := Split(sentence, Blank);
    var ws := Filter(words, w => Important(w, keywords));
    assert |ws| == 0 <==> forall k :: 0 <= k < |words| ==> !Important(words[k], keywords);
    assert |ws| > 0 ==> FirstImportant(sentence, keywords, ws[0]) by {
      if |ws| > 0 {
        FilterFirst(words, w => Important(w, keywords));
        var i :| 0 <= i < |words| && words[i] == ws[0] && forall k :: 0 <= k < i ==> !Important(words[k], keywords);
        assert Important(ws[0], keywords);
      }
    }
    ws
  }

  /** No word of the sentence is important. */
  predicate NoneImportant(sentence: string, keywords: seq<string>) {
    var words := Split(sentence, Blank);
    forall k :: 0 <= k < |words| ==> !Important(words[k], keywords)
  }

  /** `t` is the first important word of the sentence. */
  predicate FirstImportant(sentence: string, keywords: seq<string>, t: string) {
    var words := Split(sentence, Blank);
    exists i :: 0 <= i < |words| && words[i] == t && Important(t, keywords)
                && forall k :: 0 <= k < i ==> !Important(words[k], keywords)
  }

  /** `createFillBlankQuestion`: `None` when no word is important; otherwise
      the first important word is blanked at its first occurrence and is
      option 0 of four fixed variants of itself. */
  function CreateFillBlankQuestion(sentence: string, keywords: seq<string>): (r: Option<Question>)
    ensures r.None? <==> NoneImportant(sentence, keywords)
    ensures r.Some? ==>
              |r.value.options| == 4 &&
              var q := r.value;
              var t := q.options[0];
              && q.kind == FillBlank && WellFormed(q)
              && q.options == [t, "Nie " + t, t + "y", "Bez " + t]
              && FirstImportant(sentence, keywords, t)
              && q.question == "Uzupełnij: " + ReplaceFirst(sentence, t, Gap)
  {
    var important := ImportantWords(sentence, keywords);
    if |important| == 0 then None
    else
      var target := important[0];
      Some(Question(
        "Uzupełnij: " + ReplaceFirst(sentence, target, Gap),
        [target, "Nie " + target, target + "y", "Bez " + target],
        0,
        FillBlank,
        "Prawidłowa odpowiedź to \"" + target + "\"."))
  }

  /** Writing the answer into the blank gives the sentence back, and the
      blank sits at the answer's first occurrence. */
  lemma FillBlankRestores(sentence: string, keywords: seq<string>)
    ensures var r := CreateFillBlankQuestion(sentence, keywords);
            r.Some? ==>
            var q := r.value;
            var t := q.options[q.correct];
            var body := q.question[|"Uzupełnij: "|..];
            Contains(sentence, t)
            && var i := IndexOf(sentence, t).value;
               && i + |Gap| <= |body|
               && body[i..i + |Gap|] == Gap
               && body[..i] + t + body[i + |Gap|..] == sentence
  {
    var r := CreateFillBlankQuestion(sentence, keywords);
    if r.None? { return; }
    var q := r.value;
    var t := q.options[0];
    var words := Split(sentence, Blank);
    assert FirstImportant(sentence, keywords, t);
    var i :| 0 <= i < |words| && words[i] == t && Important(t, keywords)
             && forall k :: 0 <= k < i ==> !Important(words[k], keywords);
    PieceOccurs(sentence, i);
    ReplaceFirstUndo(sentence, t, Gap);
  }

  // ---------------------------------------------------------------------------
  // The quiz (app.js:300-332)

  /** The number of iterations of `for (i = 0; i < Math.min(12, n / 5); i++)`
      for n sentences: the i with i < 12 and 5i < n. */
  function SlotCount(n: nat): (c: nat)
    ensures c <= MaxSlots
    ensures c == MaxSlots || 5 * c >= n
    ensures c == 0 || 5 * (c - 1) < n
  {
    Min(MaxSlots, (n + 4) / 5)
  }

  /** `sentences[i * 3] || sentences[i]`. Inside the loop 5i < n, so
      `i * 3` is always in range and the fallback is never taken. */
  function SlotSentence(sentences: seq<string>, i: nat): (s: string)
    requires 5 * i < |sentences|
    ensures 3 * i < |sentences| && s == sentences[3 * i]
  {
    sentences[3 * i]
  }

  /** `questionTypes`, in the order the slots cycle through them. */
  const QuestionTypes: seq<Kind> := [MultipleChoice, TrueFalse, FillBlank]

  /** The kind of slot `i`: the slots cycle through `QuestionTypes`. */
  function KindOfSlot(i: nat): (k: Kind)
    ensures k == QuestionTypes[i % |QuestionTypes|]
  {
    match i % 3
    case 0 => MultipleChoice
    case 1 => TrueFalse
    case _ => FillBlank
  }

  /** What a question of each kind takes from its sentence: a multiple-choice
      answer is one of the sentence's long words, a true/false statement is
      the sentence or its rewrite, and a blank's answer is the sentence's
      first important word. */
  predicate AboutSentence(q: Question, sentence: string, keywords: seq<string>, rewrite: nat) {
    match q.kind
    case MultipleChoice =>
      0 <= q.correct < |q.options| && q.options[q.correct] in LongWords(sentence)
    case TrueFalse =>
      || q.question == TrueFalsePrefix + sentence
      || q.question == TrueFalsePrefix + ModifySentenceToFalse(sentence, rewrite)
    case FillBlank =>
      |q.options| > 0 && FirstImportant(sentence, keywords, q.options[0])
  }

  /** The question built in slot `i`, if any. */
  function Slot(sentences: seq<string>, keywords: seq<string>, i: nat, draw: Draw): (r: Option<Question>)
    requires 5 * i < |sentences|
    ensures r.Some? ==> WellFormed(r.value) && r.value.kind == KindOfSlot(i)
    ensures KindOfSlot(i) == TrueFalse ==> r.Some?
    ensures 3 * i < |sentences|
  {
    var sentence := SlotSentence(sentences, i);
    match i % 3
    case 0 => CreateMultipleChoiceQuestion(sentence, keywords, draw)
    case 1 => Some(CreateTrueFalseQuestion(sentence, draw.coin, draw.rewrite))
    case _ => CreateFillBlankQuestion(sentence, keywords)
  }

  /** The question of slot `i` is about the slot's sentence, `sentences[3 * i]`. */
  lemma SlotAboutSentence(sentences: seq<string>, keywords: seq<string>, i: nat, draw: Draw)
    requires 5 * i < |sentences|
    ensures var r := Slot(sentences, keywords, i, draw);
            r.Some? ==> AboutSentence(r.value, sentences[3 * i], keywords, draw.rewrite)
  {
    var sentence := sentences[3 * i];
    if i % 3 == 0 {
      var r := CreateMultipleChoiceQuestion(sentence, keywords, draw);
      if r.Some? {
        var words := LongWords(sentence);
        assert r.value.options[r.value.correct] == words[Below(draw.target, |words|)];
      }
    } else if i % 3 == 1 {
      var q := CreateTrueFalseQuestion(sentence, draw.coin, draw.rewrite);
      assert q.correct == 0 || q.correct == 1;
    }
  }

  function DrawAt(draws: seq<Draw>, i: nat): Draw {
    if i < |draws| then draws[i] else Draw(0, [], false, 0)
  }

  /** Each present slot holds a well-formed question of the slot's kind. */
  predicate GoodSlots(slots: seq<Option<Question>>) {
    forall i :: 0 <= i < |slots| && slots[i].Some? ==>
      WellFormed(slots[i].value) && slots[i].value.kind == KindOfSlot(i)
  }

  /** Every slot of the loop, in order. */
  function Slots(sentences: seq<string>, keywords: seq<string>, draws: seq<Draw>): (r: seq<Option<Question>>)
    ensures |r| == SlotCount(|sentences|)
    ensures forall i :: 0 <= i < |r| ==> 5 * i < |sentences| && r[i] == Slot(sentences, keywords, i, DrawAt(draws, i))
    ensures GoodSlots(r)
  {
    var c := SlotCount(|sentences|);
    var r := seq(c, i requires 0 <= i < c => Slot(sentences, keywords, i, DrawAt(draws, i)));
    assert GoodSlots(r) by {
      forall i | 0 <= i < |r| && r[i].Some?
        ensures WellFormed(r[i].value) && r[i].value.kind == KindOfSlot(i)
      {
        var q := Slot(sentences, keywords, i, DrawAt(draws, i));
        assert r[i] == q;
      }
    }
    r
  }

  /** `q` was produced by some slot, and has that slot's kind. */
  predicate FromSlot(slots: seq<Option<Question>>, q: Question) {
    exists i :: 0 <= i < |slots| && slots[i] == Some(q) && q.kind == KindOfSlot(i)
  }

  /** `quiz.slice(0, 10)` of the questions the slots produced: the first
      ten present ones in slot order (`Somes` skips the missing slots and
      keeps the order of the rest, `SomesAppend`); each is well formed and
      comes from a slot of its kind. */
  function CollectQuestions(slots: seq<Option<Question>>): (r: seq<Question>)
    requires GoodSlots(slots)
    ensures r == Take(Somes(slots), MaxQuestions)
    ensures |r| == Min(MaxQuestions, |Somes(slots)|)
    ensures forall j :: 0 <= j < |r| ==> WellFormed(r[j]) && FromSlot(slots, r[j])
  {
    var r := Take(Somes(slots), MaxQuestions);
    forall j | 0 <= j < |r| ensures WellFormed(r[j]) && FromSlot(slots, r[j]) {
      assert Some(r[j]) in slots;
      var i :| 0 <= i < |slots| && slots[i] == Some(r[j]);
    }
    r
  }

  /** `generateQuizFromText`: at most ten well-formed questions, each from
      the slot of its kind over the sentences longer than twenty characters
      and the extracted keywords. */
  function GenerateQuiz(text: string, draws: seq<Draw>): (r: seq<Question>)
    ensures var slots := Slots(Sentences(text, 20), ExtractKeywords(text), draws);
            && r == Take(Somes(slots), MaxQuestions)
            && |r| == Min(MaxQuestions, |Somes(slots)|)
            && forall j :: 0 <= j < |r| ==> WellFormed(r[j]) && FromSlot(slots, r[j])
  {
    CollectQuestions(Slots(Sentences(text, 20), ExtractKeywords(text), draws))
  }
}

=== FILE: ranking.dfy ===
/** The order produced by a stable descending sort on a numeric key, as
    `Array.prototype.sort((a, b) => key(b) - key(a))` gives it (a stable sort
    since ECMAScript 2019), followed by `slice(0, k)`.

    A sort is modelled by the permutation of positions it produces: entry
    `j` of the result is the original position of the element that ends up
    at `j`. Stability is then an ordinary ordering property: equal keys keep
    increasing original positions. */
module Ranking {
  import opened Basics

  /** Position `a` belongs before position `b`: a larger key, or an equal
      key and an earlier position. */
  predicate Precedes(keys: seq<int>, a: int, b: int)
    requires 0 <= a < |keys| && 0 <= b < |keys|
  {
    keys[a] > keys[b] || (keys[a] == keys[b] && a < b)
  }

  predicate InRange(keys: seq<int>, order: seq<nat>) {
    forall j :: 0 <= j < |order| ==> order[j] < |keys|
  }

  /** `order` lists positions of `keys` in descending key order, ties in
      original order. Such a list has no duplicates, since no position
      precedes itself. */
  predicate SortedDesc(keys: seq<int>, order: seq<nat>) {
    && InRange(keys, order)
    && forall i, j :: 0 <= i < j < |order| ==> Precedes(keys, order[i], order[j])
  }

  /** Every entry of `order` comes after position `a`. */
  predicate PrecedesAll(keys: seq<int>, a: nat, order: seq<nat>)
    requires a < |keys|
  {
    forall v :: v in order ==> v < |keys| && Precedes(keys, a, v)
  }

  lemma SortedCons(keys: seq<int>, a: nat, order: seq<nat>)
    requires a < |keys| && SortedDesc(keys, order) && PrecedesAll(keys, a, order)
    ensures SortedDesc(keys, [a] + order)
  {
    var r := [a] + order;
    forall i, j | 0 <= i < j < |r| ensures Precedes(keys, r[i], r[j]) {
      assert r[j] == order[j - 1];
      if i > 0 {
        assert r[i] == order[i - 1];
      } else {
        assert r[j] in order;
      }
    }
  }

  /** One step of insertion sort: `x` goes after every entry whose key is at
      least its own, which keeps equal keys in insertion order. */
  function Insert(keys: seq<int>, order: seq<nat>, x: nat): (r: seq<nat>)
    requires x < |keys| && InRange(keys, order)
    ensures |r| == |order| + 1
    ensures multiset(r) == multiset(order) + multiset{x}
    ensures InRange(keys, r)
  {
    if |order| == 0 then [x]
    else if keys[x] > keys[order[0]] then [x] + order
    else
      assert order == [order[0]] + order[1..];
      [order[0]] + Insert(keys, order[1..], x)
  }

  /** Inserting a position later than all sorted entries keeps the list
      sorted, equal keys included: insertion sort is stable. */
  lemma {:induction false} InsertSorted(keys: seq<int>, order: seq<nat>, x: nat)
    requires x < |keys| && SortedDesc(keys, order)
    requires forall j :: 0 <= j < |order| ==> order[j] < x
    ensures SortedDesc(keys, Insert(keys, order, x))
    decreases |order|
  {
    if |order| == 0 {
    } else if keys[x] > keys[order[0]] {
      forall v | v in order ensures v < |keys| && Precedes(keys, x, v) {
        var j :| 0 <= j < |order| && order[j] == v;
        if j > 0 { assert Precedes(keys, order[0], order[j]); }
      }
      SortedCons(keys, x, order);
    } else {
      var tail := order[1..];
      InsertSorted(keys, tail, x);
      var rest := Insert(keys, tail, x);
      forall v | v in rest ensures v < |keys| && Precedes(keys, order[0], v) {
        assert v in multiset(rest);
        if v != x {
          assert v in multiset(tail);
          var j :| 0 <= j < |tail| && tail[j] == v;
          assert Precedes(keys, order[0], order[j + 1]);
        }
      }
      SortedCons(keys, order[0], rest);
    }
  }

  function Range(m: nat): (r: seq<nat>)
    ensures |r| == m
    ensures forall j :: 0 <= j < m ==> r[j] == j
  {
    seq(m, j requires 0 <= j < m => j)
  }

  lemma RangeBound(r: seq<nat>, m: nat)
    requires multiset(r) == multiset(Range(m))
    ensures forall j :: 0 <= j < |r| ==> r[j] < m
  {
    forall j | 0 <= j < |r| ensures r[j] < m {
      assert r[j] in multiset(r);
      var i :| 0 <= i < m && Range(m)[i] == r[j];
    }
  }

  /** Inserting position `m - 1` into the sorted first `m - 1` positions
      sorts the first `m`. */
  lemma SortStep(keys: seq<int>, prev: seq<nat>, m: nat)
    requires 1 <= m <= |keys|
    requires multiset(prev) == multiset(Range(m - 1)) && SortedDesc(keys, prev)
    ensures multiset(Insert(keys, prev, m - 1)) == multiset(Range(m))
    ensures SortedDesc(keys, Insert(keys, prev, m - 1))
  {
    assert Range(m) == Range(m - 1) + [m - 1];
    RangeBound(prev, m - 1);
    InsertSorted(keys, prev, m - 1);
  }

  /** The stable descending order of the first `m` positions. */
  function SortPrefix(keys: seq<int>, m: nat): (r: seq<nat>)
    requires m <= |keys|
    ensures |r| == m
    ensures multiset(r) == multiset(Range(m))
    ensures SortedDesc(keys, r)
    decreases m
  {
    if m == 0 then []
    else
      var prev := SortPrefix(keys, m - 1);
      SortStep(keys, prev, m);
      Insert(keys, prev, m - 1)
  }

  /** The positions of `keys` after a stable sort by descending key. */
  function StableOrder(keys: seq<int>): (r: seq<nat>)
    ensures |r| == |keys|
    ensures SortedDesc(keys, r)
    ensures forall x :: 0 <= x < |keys| ==> x in r
  {
    var r := SortPrefix(keys, |keys|);
    forall x | 0 <= x < |keys| ensures x in r {
      assert Range(|keys|)[x] == x;
      assert x in multiset(Range(|keys|));
    }
    r
  }

  /** The positions of the `k` highest keys, highest first, ties in original
      order: a stable descending sort followed by `slice(0, k)`. */
  function TopPositions(keys: seq<int>, k: nat): (r: seq<nat>)
    ensures |r| == Min(k, |keys|)
    ensures SortedDesc(keys, r)
    ensures forall x :: 0 <= x < |keys| && x !in r ==>
              |r| == k && forall j :: 0 <= j < |r| ==> Precedes(keys, r[j], x)
  {
    var all := StableOrder(keys);
    var r := Take(all, k);
    forall x | 0 <= x < |keys| && x !in r
      ensures |r| == k && forall j :: 0 <= j < |r| ==> Precedes(keys, r[j], x)
    {
      assert x in all;
      var p :| 0 <= p < |all| && all[p] == x;
      assert p >= |r|;
      forall j | 0 <= j < |r| ensures Precedes(keys, r[j], x) {
        assert r[j] == all[j];
      }
    }
    r
  }

  /** Asking for fewer positions gives a prefix of the longer answer. */
  lemma TopPrefix(keys: seq<int>, a: nat, b: nat)
    requires a <= b
    ensures var short := TopPositions(keys, a);
            var long := TopPositions(keys, b);
            |short| <= |long| && short == long[..|short|]
  {
    var all := StableOrder(keys);
    assert TopPositions(keys, a) == Take(all, a);
    assert TopPositions(keys, b) == Take(all, b);
  }
}

=== FILE: segment.dfy ===
/** Sentence segmentation as the three generators do it:
    `text.split(/[.!?]+/).filter(s => s.trim().length > n)`, with n = 20 for
    the mind map and the quiz and n = 30 for the summary. The kept sentences
    are not trimmed. */
module Segment {
  import opened Basics
  import opened Text

  predicate LongerThan(s: string, n: nat) {
    |Trim(s)| > n
  }

  function Sentences(text: string, n: nat): (r: seq<string>)
    ensures forall i :: 0 <= i < |r| ==> LongerThan(r[i], n) && FreeOf(r[i], SentenceEnd)
    ensures forall s :: s in Split(text, SentenceEnd) && LongerThan(s, n) ==> s in r
    ensures forall s :: multiset(r)[s] == if LongerThan(s, n) then multiset(Split(text, SentenceEnd))[s] else 0
  {
    var pieces := Split(text, SentenceEnd);
    forall s ensures multiset(Filter(pieces, s => LongerThan(s, n)))[s] == if LongerThan(s, n) then multiset(pieces)[s] else 0 {
      FilterCount(pieces, s => LongerThan(s, n), s);
    }
    Filter(pieces, s => LongerThan(s, n))
  }

  /** Sentences come in text order: the sentences of two texts joined at a
      terminator are those of the first followed by those of the second. */
  lemma SentencesAppend(a: string, c: char, b: string, n: nat)
    requires c == '.' || c == '!' || c == '?'
    ensures Sentences(a + [c] + b, n) == Sentences(a, n) + Sentences(b, n)
  {
    SplitAppend(a, c, b, SentenceEnd);
    FilterAppend(Split(a, SentenceEnd), Split(b, SentenceEnd), s => LongerThan(s, n));
  }

  /** A text without a terminator is one sentence, kept when it is long
      enough. */
  lemma SentencesSingle(text: string, n: nat)
    requires FreeOf(text, SentenceEnd)
    ensures Sentences(text, n) == if LongerThan(text, n) then [text] else []
  {
    SplitFree(text, SentenceEnd);
    FilterSingle(text, s => LongerThan(s, n));
  }
}

=== FILE: summary.dfy ===
/** The summariser (`generateSummaryFromText` and `createSummary`,
    app.js:261-298). Every sentence longer than thirty characters gets a
    score from its position, its length and its keyword count; a summary of
    at most N sentences is the N best-scoring ones, trimmed, in descending
    score order, joined by ". " and closed by ".".

    The source's score is a floating-point number. The model keeps it exact:
    `Score` is the source's score multiplied by 10n (n the number of
    sentences), which is an integer and orders sentences exactly as the
    real-valued score does (`ScoreScaled`, `ScoreOrder`). */
module Summary {
  import opened Basics
  import opened Text
  import opened Segment
  import opened Keywords
  import Ranking

  datatype Summary = Summary(short: string, medium: string, long: string)

  const ShortLength: nat := 3
  const MediumLength: nat := 6
  const LongLength: nat := 10

  /** `sentence.split(' ').length`, empty pieces included. */
  function WordCount(sentence: string): nat {
    |Split(sentence, Blank)|
  }

  predicate IdealLength(sentence: string) {
    10 <= WordCount(sentence) <= 30
  }

  /** The score the source gives the sentence at position `i` of `n`, in
      exact arithmetic, for a sentence of ideal length or not, holding
      `keywords` keywords of its own. */
  function SourceScore(i: nat, n: nat, ideal: bool, keywords: nat): real
    requires i < n
  {
    (n - i) as real / n as real * 0.3 + (if ideal then 0.3 else 0.0) + keywords as real * 0.1
  }

  /** The same score multiplied by 10n. */
  function Score(i: nat, n: nat, ideal: bool, keywords: nat): int
    requires i < n
  {
    3 * (n - i) + (if ideal then 3 * n else 0) + n * keywords
  }

  /** `x` is the source's score scaled by the positive factor 10n. */
  predicate Scaled(x: int, i: nat, n: nat, ideal: bool, keywords: nat)
    requires i < n
  {
    x as real == 10.0 * n as real * SourceScore(i, n, ideal, keywords)
  }

  lemma ScoreScaled(i: nat, n: nat, ideal: bool, keywords: nat)
    requires i < n
    ensures Scaled(Score(i, n, ideal, keywords), i, n, ideal, keywords)
  {
    var nr := n as real;
    var q := (n - i) as real / nr;
    assert q * nr == (n - i) as real;
    var k := keywords as real;
    var b := if ideal then 0.3 else 0.0;
    assert 10.0 * nr * (q * 0.3 + b + k * 0.1) == 3.0 * (q * nr) + 10.0 * nr * b + nr * k;
  }

  /** Comparing scaled scores is comparing the source's scores. */
  lemma ScoreOrder(i: nat, j: nat, n: nat, ideal1: bool, k1: nat, ideal2: bool, k2: nat)
    requires i < n && j < n
    ensures Score(i, n, ideal1, k1) <= Score(j, n, ideal2, k2)
            <==> SourceScore(i, n, ideal1, k1) <= SourceScore(j, n, ideal2, k2)
  {
    ScoreScaled(i, n, ideal1, k1);
    ScoreScaled(j, n, ideal2, k2);
    var f := 10.0 * n as real;
    var x := SourceScore(i, n, ideal1, k1);
    var y := SourceScore(j, n, ideal2, k2);
    assert f > 0.0;
    if x <= y {
      assert f * x <= f * y;
    } else {
      assert f * x > f * y;
    }
  }

  /** The scaled score of every sentence: 10n times the source's score from
      its position, the blank-separated word count of the untrimmed
      sentence and the keywords of the sentence alone. */
  function Scores(sentences: seq<string>): (r: seq<int>)
    ensures |r| == |sentences|
    ensures forall i :: 0 <= i < |sentences| ==>
              Scaled(r[i], i, |sentences|, IdealLength(sentences[i]), |ExtractKeywords(sentences[i])|)
  {
    var n := |sentences|;
    var r := seq(n, i requires 0 <= i < n =>
      Score(i, n, IdealLength(sentences[i]), |ExtractKeywords(sentences[i])|));
    forall i | 0 <= i < n
      ensures Scaled(r[i], i, n, IdealLength(sentences[i]), |ExtractKeywords(sentences[i])|)
    {
      ScoreScaled(i, n, IdealLength(sentences[i]), |ExtractKeywords(sentences[i])|);
    }
    r
  }

  /** Sentence `a` is placed before sentence `b`: a higher score, or an
      equal score and an earlier position. */
  predicate Before(sentences: seq<string>, a: nat, b: nat)
    requires a < |sentences| && b < |sentences|
  {
    Ranking.Precedes(Scores(sentences), a, b)
  }

  /** The positions of the chosen sentences: the `maxSentences` best, best
      first; no sentence left out is placed before one that was chosen. */
  function Selection(sentences: seq<string>, maxSentences: nat): (top: seq<nat>)
    ensures |top| == Min(maxSentences, |sentences|)
    ensures forall j :: 0 <= j < |top| ==> top[j] < |sentences|
    ensures forall i, j :: 0 <= i < j < |top| ==> Before(sentences, top[i], top[j])
    ensures forall x :: 0 <= x < |sentences| && x !in top ==>
              forall j :: 0 <= j < |top| ==> Before(sentences, top[j], x)
  {
    Ranking.TopPositions(Scores(sentences), maxSentences)
  }

  /** The chosen sentences, trimmed, in the order they are joined. */
  function Chosen(sentences: seq<string>, maxSentences: nat): (c: seq<string>)
    ensures |c| == Min(maxSentences, |sentences|)
    ensures forall j :: 0 <= j < |c| ==> c[j] == Trim(sentences[Selection(sentences, maxSentences)[j]])
  {
    var top := Selection(sentences, maxSentences);
    seq(|top|, j requires 0 <= j < |top| => Trim(sentences[top[j]]))
  }

  /** `createSummary(sentences, maxSentences)`. */
  function CreateSummary(sentences: seq<string>, maxSentences: nat): (r: string)
    ensures |r| >= 1 && r[|r| - 1] == '.'
    ensures Min(maxSentences, |sentences|) == 0 ==> r == "."
  {
    Join(Chosen(sentences, maxSentences), ". ") + "."
  }

  /** The text between the terminators of a summary: the first chosen
      sentence, then each further one after its blank. */
  function Pieces(chosen: seq<string>): (r: seq<string>)
    ensures |r| == (if |chosen| == 0 then 1 else |chosen|)
    ensures |chosen| > 0 ==> r[0] == chosen[0]
    ensures forall j :: 1 <= j < |chosen| ==> r[j] == " " + chosen[j]
  {
    if |chosen| == 0 then [""] else [chosen[0]] + Shifted(chosen[1..])
  }

  /** Each sentence with the blank that follows a terminator in front. */
  function Shifted(ws: seq<string>): (r: seq<string>)
    ensures |r| == |ws|
    ensures forall j :: 0 <= j < |ws| ==> r[j] == " " + ws[j]
  {
    seq(|ws|, j requires 0 <= j < |ws| => " " + ws[j])
  }

  lemma {:induction false} JoinShifted(ws: seq<string>)
    requires |ws| >= 1
    ensures Join(Shifted(ws), ".") == " " + Join(ws, ". ")
    decreases |ws|
  {
    if |ws| > 1 {
      JoinShifted(ws[1..]);
      var v := Shifted(ws);
      assert v[1..] == Shifted(ws[1..]);
      assert Join(v, ".") == v[0] + "." + Join(v[1..], ".");
    }
  }

  /** The pieces a summary splits into at its terminators: `Pieces`, then
      the empty piece after the closing full stop. */
  function Layout(chosen: seq<string>): (r: seq<string>)
    ensures |r| == (if |chosen| == 0 then 2 else |chosen| + 1)
  {
    Pieces(chosen) + [""]
  }

  lemma JoinWithBlankStop(ws: seq<string>)
    ensures Join(ws, ". ") == Join(Pieces(ws), ".")
  {
    if |ws| > 1 {
      JoinShifted(ws[1..]);
      var p := Pieces(ws);
      assert p == [ws[0]] + Shifted(ws[1..]);
      assert p[1..] == Shifted(ws[1..]);
      assert Join(p, ".") == ws[0] + "." + Join(p[1..], ".");
    }
  }

  lemma {:induction false} JoinEmptyLast(ws: seq<string>, sep: string)
    requires |ws| >= 1
    ensures Join(ws + [""], sep) == Join(ws, sep) + sep
    decreases |ws|
  {
    if |ws| > 1 {
      JoinEmptyLast(ws[1..], sep);
      assert (ws + [""])[1..] == ws[1..] + [""];
    }
  }

  lemma PiecesFree(c: seq<string>)
    requires forall j :: 0 <= j < |c| ==> FreeOf(c[j], SentenceEnd)
    ensures forall k :: 0 <= k < |Layout(c)| ==> FreeOf(Layout(c)[k], SentenceEnd)
  {
    var pieces := Layout(c);
    forall k | 0 <= k < |pieces| ensures FreeOf(pieces[k], SentenceEnd) {
      if 0 < k < |c| {
        assert pieces[k] == " " + c[k];
      } else if k == 0 && |c| > 0 {
        assert pieces[k] == c[0];
      } else {
        assert pieces[k] == "";
      }
    }
  }

  /** Joining sentences free of terminators with ". " and closing with "."
      can be split back into them. */
  lemma LayoutSplits(c: seq<string>)
    requires forall j :: 0 <= j < |c| ==> FreeOf(c[j], SentenceEnd)
    ensures Split(Join(c, ". ") + ".", SentenceEnd) == Layout(c)
    ensures OnlySeparator(Join(c, ". ") + ".", SentenceEnd, '.')
  {
    var head := Pieces(c);
    var pieces := Layout(c);
    JoinWithBlankStop(c);
    JoinEmptyLast(head, ".");
    assert Join(c, ". ") + "." == Join(pieces, ['.']);
    PiecesFree(c);
    assert forall k :: 0 <= k < |pieces| ==> FreeOf(pieces[k], SentenceEnd);
    SplitJoin(pieces, '.', SentenceEnd);
    JoinOnlySeparator(pieces, '.', SentenceEnd);
  }

  /** A summary can be read back: split at its terminators it gives exactly
      the chosen sentences, in descending score order, and every terminator
      in it is a full stop, provided no sentence holds a terminator (which
      sentences cut at terminators never do). */
  lemma SummaryLayout(sentences: seq<string>, maxSentences: nat)
    requires forall i :: 0 <= i < |sentences| ==> FreeOf(sentences[i], SentenceEnd)
    ensures Split(CreateSummary(sentences, maxSentences), SentenceEnd) == Layout(Chosen(sentences, maxSentences))
    ensures OnlySeparator(CreateSummary(sentences, maxSentences), SentenceEnd, '.')
  {
    var c := Chosen(sentences, maxSentences);
    var top := Selection(sentences, maxSentences);
    forall j | 0 <= j < |c| ensures FreeOf(c[j], SentenceEnd) {
      TrimFree(sentences[top[j]], SentenceEnd);
    }
    LayoutSplits(c);
  }

  /** A summary of the chosen sentences as `join('. ') + '.'` writes it: it
      splits back into them at its terminators, ends in a full stop and holds
      no other terminator than full stops. */
  predicate LaidOut(r: string, sentences: seq<string>, maxSentences: nat) {
    && Split(r, SentenceEnd) == Layout(Chosen(sentences, maxSentences))
    && |r| >= 1 && r[|r| - 1] == '.'
    && OnlySeparator(r, SentenceEnd, '.')
  }

  /** Every summary of terminator-free sentences is laid out that way. */
  lemma SummaryLaidOut(sentences: seq<string>, maxSentences: nat)
    requires forall i :: 0 <= i < |sentences| ==> FreeOf(sentences[i], SentenceEnd)
    ensures LaidOut(CreateSummary(sentences, maxSentences), sentences, maxSentences)
  {
    SummaryLayout(sentences, maxSentences);
  }

  /** `generateSummaryFromText`: three summaries of 3, 6 and 10 sentences
      drawn from the sentences longer than thirty characters, each joined
      with full stops. (The paragraph list the source also computes is never
      used.) */
  function GenerateSummary(text: string): (s: Summary)
    ensures var sentences := Sentences(text, 30);
            && LaidOut(s.short, sentences, ShortLength)
            && LaidOut(s.medium, sentences, MediumLength)
            && LaidOut(s.long, sentences, LongLength)
  {
    var sentences := Sentences(text, 30);
    SummaryLaidOut(sentences, ShortLength);
    SummaryLaidOut(sentences, MediumLength);
    SummaryLaidOut(sentences, LongLength);
    Summary(CreateSummary(sentences, ShortLength),
            CreateSummary(sentences, MediumLength),
            CreateSummary(sentences, LongLength))
  }

  /** The shorter summaries open with the longer ones' sentences: every
      tier takes a prefix of the same ranking. */
  lemma TiersNested(sentences: seq<string>, a: nat, b: nat)
    requires a <= b
    ensures var short := Chosen(sentences, a);
            var long := Chosen(sentences, b);
            |short| <= |long| && short == long[..|short|]
  {
    var sa := Selection(sentences, a);
    var sb := Selection(sentences, b);
    Ranking.TopPrefix(Scores(sentences), a, b);
    var short := Chosen(sentences, a);
    var long := Chosen(sentences, b);
    forall j | 0 <= j < |short| ensures short[j] == long[j] {
      assert sa[j] == sb[j];
    }
  }
}

=== FILE: text.dfy ===
/** The string operations the pipeline is built from, on JavaScript strings
    modelled as sequences of characters: the `\s` and `\w` character classes,
    case mapping restricted to ASCII and the Polish letters, `split`, `join`,
    `trim`, `includes`/`indexOf`, `replace` and decimal numerals. */
module Text {
  import opened Basics

  // ---------------------------------------------------------------------------
  // Character classes

  /** JavaScript's `\s`, which is also the set `trim` removes: the
      WhiteSpace and LineTerminator code points of ECMAScript. */
  predicate IsSpace(c: char) {
    c in SpaceChars
  }

  const SpaceChars: set<char> := {
    '\t', '\n', '\U{000B}', '\U{000C}', '\r', ' ', '\U{00A0}', '\U{1680}',
    '\U{2000}', '\U{2001}', '\U{2002}', '\U{2003}', '\U{2004}', '\U{2005}',
    '\U{2006}', '\U{2007}', '\U{2008}', '\U{2009}', '\U{200A}',
    '\U{2028}', '\U{2029}', '\U{202F}', '\U{205F}', '\U{3000}', '\U{FEFF}'}

  predicate IsDigit(c: char) {
    '0' <= c <= '9'
  }

  predicate IsAsciiUpper(c: char) {
    'A' <= c <= 'Z'
  }

  /** JavaScript's `\w`: ASCII letters, ASCII digits and the underscore. */
  predicate IsWordChar(c: char) {
    IsAsciiUpper(c) || ('a' <= c <= 'z') || IsDigit(c) || c == '_'
  }

  /** The Polish letters the keyword filter keeps beside `\w`. */
  const PolishLetters: string := "ąęćłńóśźż"

  /** `toLowerCase` on one character, for ASCII and the Polish letters;
      every other character is left as it is. */
  function Lower(c: char): char {
    if IsAsciiUpper(c) then (c as int + 32) as char
    else
      match c
      case 'Ą' => 'ą'
      case 'Ę' => 'ę'
      case 'Ć' => 'ć'
      case 'Ł' => 'ł'
      case 'Ń' => 'ń'
      case 'Ó' => 'ó'
      case 'Ś' => 'ś'
      case 'Ź' => 'ź'
      case 'Ż' => 'ż'
      case _ => c
  }

  /** `toUpperCase` on one character, for ASCII and the Polish letters. */
  function Upper(c: char): char {
    if 'a' <= c <= 'z' then (c as int - 32) as char
    else
      match c
      case 'ą' => 'Ą'
      case 'ę' => 'Ę'
      case 'ć' => 'Ć'
      case 'ł' => 'Ł'
      case 'ń' => 'Ń'
      case 'ó' => 'Ó'
      case 'ś' => 'Ś'
      case 'ź' => 'Ź'
      case 'ż' => 'Ż'
      case _ => c
  }

  /** Upper-casing a character that lower-casing leaves alone can be undone
      by lower-casing. */
  lemma LowerUndoesUpper(c: char)
    requires Lower(c) == c
    ensures Lower(Upper(c)) == c
  {
  }

  /** `s.toLowerCase()`. */
  function LowerStr(s: string): (r: string)
    ensures |r| == |s|
    ensures forall i :: 0 <= i < |s| ==> r[i] == Lower(s[i])
  {
    seq(|s|, i requires 0 <= i < |s| => Lower(s[i]))
  }

  predicate IsLowerCase(s: string) {
    LowerStr(s) == s
  }

  /** `capitalizeFirst`: upper-cases the first character and keeps the rest. */
  function Capitalize(s: string): (r: string)
    ensures |r| == |s|
    ensures |s| > 0 ==> r[0] == Upper(s[0]) && r[1..] == s[1..]
  {
    if |s| == 0 then "" else [Upper(s[0])] + s[1..]
  }

  /** Capitalisation loses nothing on lower-case text: lower-casing the
      capitalised word gives the word back. */
  lemma {:induction false} CapitalizeInvertible(s: string)
    requires IsLowerCase(s)
    ensures LowerStr(Capitalize(s)) == s
  {
    if |s| > 0 {
      assert Lower(s[0]) == s[0] by { assert LowerStr(s)[0] == Lower(s[0]); }
      LowerUndoesUpper(s[0]);
      var c := Capitalize(s);
      forall i | 0 <= i < |s| ensures LowerStr(c)[i] == s[i] {
        if i > 0 {
          assert c[i] == s[i];
          assert LowerStr(s)[i] == Lower(s[i]);
        }
      }
    }
  }

  // ---------------------------------------------------------------------------
  // Splitting and joining

  /** The separators the source splits on. */
  datatype Separator =
    | Blank        // the one-character string ' ' of `split(' ')`
    | Whitespace   // the class of `split(/\s+/)`
    | SentenceEnd  // the class of `split(/[.!?]+/)`

  predicate Separates(sep: Separator, c: char) {
    match sep
    case Blank => c == ' '
    case Whitespace => IsSpace(c)
    case SentenceEnd => c == '.' || c == '!' || c == '?'
  }

  predicate FreeOf(s: string, sep: Separator) {
    forall k :: 0 <= k < |s| ==> !Separates(sep, s[k])
  }

  function SeparatorCount(s: string, sep: Separator): nat {
    if |s| == 0 then 0
    else (if Separates(sep, s[0]) then 1 else 0) + SeparatorCount(s[1..], sep)
  }

  /** The pieces between single separator characters, empty pieces included,
      as `split` with a one-character separator returns them. Splitting on
      runs of separators, as `/\s+/` and `/[.!?]+/` do, yields the same
      non-empty pieces in the same order; every consumer in the pipeline
      discards the empty ones. */
  function Split(s: string, sep: Separator): (r: seq<string>)
    ensures |r| == SeparatorCount(s, sep) + 1
    ensures forall i :: 0 <= i < |r| ==> FreeOf(r[i], sep)
    decreases |s|
  {
    if |s| == 0 then [""]
    else
      var rest := Split(s[1..], sep);
      if Separates(sep, s[0]) then [""] + rest
      else [[s[0]] + rest[0]] + rest[1..]
  }

  /** `ws.join(sep)`. */
  function Join(ws: seq<string>, sep: string): (r: string)
    ensures |ws| > 0 ==> |ws[0]| <= |r| && r[..|ws[0]|] == ws[0]
  {
    if |ws| == 0 then ""
    else if |ws| == 1 then ws[0]
    else ws[0] + sep + Join(ws[1..], sep)
  }

  /** Prefixing a character to the first piece commutes with appending
      further pieces. */
  lemma ExtendFirst(h: char, ra: seq<string>, rb: seq<string>)
    requires |ra| >= 1
    ensures [[h] + (ra + rb)[0]] + (ra + rb)[1..] == ([[h] + ra[0]] + ra[1..]) + rb
  {
    assert (ra + rb)[1..] == ra[1..] + rb;
  }

  /** Splitting keeps the text's order: a separator between two parts
      splits into the pieces of the first part followed by those of the
      second. */
  lemma {:induction false} SplitAppend(a: string, c: char, b: string, sep: Separator)
    requires Separates(sep, c)
    ensures Split(a + [c] + b, sep) == Split(a, sep) + Split(b, sep)
    decreases |a|
  {
    var s := a + [c] + b;
    if |a| == 0 {
      assert s == [c] + b;
      assert s[1..] == b;
    } else {
      assert s[0] == a[0];
      assert s[1..] == a[1..] + [c] + b;
      SplitAppend(a[1..], c, b, sep);
      if !Separates(sep, a[0]) {
        ExtendFirst(a[0], Split(a[1..], sep), Split(b, sep));
      }
    }
  }

  /** Every character of a piece comes from the split string. */
  lemma {:induction false} SplitChars(s: string, sep: Separator, i: nat, k: nat)
    requires i < |Split(s, sep)| && k < |Split(s, sep)[i]|
    ensures Split(s, sep)[i][k] in s
    decreases |s|
  {
    if |s| > 0 {
      var rest := Split(s[1..], sep);
      var c := Split(s, sep)[i][k];
      if Separates(sep, s[0]) {
        SplitChars(s[1..], sep, i - 1, k);
        assert c in s[1..];
      } else if i == 0 && k == 0 {
        assert c == s[0];
      } else if i == 0 {
        SplitChars(s[1..], sep, 0, k - 1);
        assert c in s[1..];
      } else {
        SplitChars(s[1..], sep, i, k);
        assert c in s[1..];
      }
    }
  }

  /** Joining the pieces of `s` with a blank gives `s` back. */
  lemma {:induction false} JoinSplit(s: string)
    ensures Join(Split(s, Blank), " ") == s
    decreases |s|
  {
    if |s| > 0 {
      var rest := Split(s[1..], Blank);
      JoinSplit(s[1..]);
      if s[0] != ' ' && |rest| > 1 {
        assert Join(rest, " ") == rest[0] + " " + Join(rest[1..], " ");
      }
    }
  }

  /** A string free of separators is a single piece. */
  lemma {:induction false} SplitFree(s: string, sep: Separator)
    requires FreeOf(s, sep)
    ensures Split(s, sep) == [s]
    decreases |s|
  {
    if |s| > 0 {
      SplitFree(s[1..], sep);
      assert [s[0]] + s[1..] == s;
    }
  }

  /** A separator-free prefix followed by one separator is the first piece. */
  lemma {:induction false} SplitAfterPiece(a: string, c: char, b: string, sep: Separator)
    requires FreeOf(a, sep) && Separates(sep, c)
    ensures Split(a + [c] + b, sep) == [a] + Split(b, sep)
    decreases |a|
  {
    if |a| == 0 {
      assert a + [c] + b == [c] + b;
      assert ([c] + b)[1..] == b;
    } else {
      var s := a + [c] + b;
      assert s[1..] == a[1..] + [c] + b;
      SplitAfterPiece(a[1..], c, b, sep);
      assert [a[0]] + a[1..] == a;
    }
  }

  /** Splitting undoes joining with a separator character, provided no
      piece holds a separator: `split` and `join` are inverse. */
  lemma {:induction false} SplitJoin(ws: seq<string>, c: char, sep: Separator)
    requires |ws| >= 1 && Separates(sep, c)
    requires forall i :: 0 <= i < |ws| ==> FreeOf(ws[i], sep)
    ensures Split(Join(ws, [c]), sep) == ws
    decreases |ws|
  {
    if |ws| == 1 {
      SplitFree(ws[0], sep);
    } else {
      SplitJoin(ws[1..], c, sep);
      SplitAfterPiece(ws[0], c, Join(ws[1..], [c]), sep);
      assert [ws[0]] + ws[1..] == ws;
    }
  }

  /** Every separator character of `s` is `c`. */
  predicate OnlySeparator(s: string, sep: Separator, c: char) {
    forall k :: 0 <= k < |s| && Separates(sep, s[k]) ==> s[k] == c
  }

  /** Joining separator-free pieces with the character `c` leaves `c` as the
      only separator character of the result. */
  lemma {:induction false} JoinOnlySeparator(ws: seq<string>, c: char, sep: Separator)
    requires forall i :: 0 <= i < |ws| ==> FreeOf(ws[i], sep)
    ensures OnlySeparator(Join(ws, [c]), sep, c)
    decreases |ws|
  {
    if |ws| > 1 {
      JoinOnlySeparator(ws[1..], c, sep);
      var a := ws[0];
      var b := Join(ws[1..], [c]);
      var s := a + [c] + b;
      assert Join(ws, [c]) == s;
      forall k | 0 <= k < |s| ensures Separates(sep, s[k]) ==> s[k] == c {
        if k < |a| {
          assert s[k] == a[k];
        } else if k > |a| {
          assert s[k] == b[k - |a| - 1];
        }
      }
    }
  }

  /** Joining a non-empty prefix of the pieces gives a prefix of the whole. */
  lemma {:induction false} JoinPrefix(ws: seq<string>, k: nat, sep: string)
    requires 1 <= k <= |ws|
    ensures |Join(ws[..k], sep)| <= |Join(ws, sep)|
    ensures Join(ws, sep)[..|Join(ws[..k], sep)|] == Join(ws[..k], sep)
    decreases k
  {
    if k > 1 {
      JoinPrefix(ws[1..], k - 1, sep);
      assert ws[..k][1..] == ws[1..][..k - 1];
      var p := Join(ws[1..][..k - 1], sep);
      var w := Join(ws[1..], sep);
      assert Join(ws[..k], sep) == ws[0] + sep + p;
      assert Join(ws, sep) == ws[0] + sep + w;
      assert w[..|p|] == p;
    }
  }

  /** Joining one more piece appends the separator and the piece. */
  lemma {:induction false} JoinAppend(ws: seq<string>, w: string, sep: string)
    requires |ws| >= 1
    ensures Join(ws + [w], sep) == Join(ws, sep) + sep + w
    decreases |ws|
  {
    if |ws| > 1 {
      JoinAppend(ws[1..], w, sep);
      assert (ws + [w])[1..] == ws[1..] + [w];
    }
  }

  /** The length of a join. */
  lemma {:induction false} JoinLength(ws: seq<string>, sep: string)
    requires |ws| >= 1
    ensures |Join(ws, sep)| >= (|ws| - 1) * |sep|
    decreases |ws|
  {
    if |ws| > 1 {
      JoinLength(ws[1..], sep);
    }
  }

  // ---------------------------------------------------------------------------
  // Trimming

  /** The end of the run of white space that starts at `i`. */
  function LeadingEnd(s: string, i: nat): (r: nat)
    requires i <= |s|
    ensures i <= r <= |s|
    ensures forall k :: i <= k < r ==> IsSpace(s[k])
    ensures r < |s| ==> !IsSpace(s[r])
    decreases |s| - i
  {
    if i < |s| && IsSpace(s[i]) then LeadingEnd(s, i + 1) else i
  }

  /** The start of the run of white space that ends at `j`, not going below
      `lo`. */
  function TrailingStart(s: string, lo: nat, j: nat): (r: nat)
    requires lo <= j <= |s|
    ensures lo <= r <= j
    ensures forall k :: r <= k < j ==> IsSpace(s[k])
    ensures r > lo ==> !IsSpace(s[r - 1])
    decreases j
  {
    if j > lo && IsSpace(s[j - 1]) then TrailingStart(s, lo, j - 1) else j
  }

  /** `r` sits at position `i` of `s`, with only white space around it. */
  predicate TrimmedAt(s: string, r: string, i: int) {
    && 0 <= i <= |s| - |r| && s[i..i + |r|] == r
    && (forall k :: 0 <= k < i ==> IsSpace(s[k]))
    && (forall k :: i + |r| <= k < |s| ==> IsSpace(s[k]))
  }

  /** `s.trim()`: the substring left after removing leading and trailing
      white space. */
  function Trim(s: string): (r: string)
    ensures |r| > 0 ==> !IsSpace(r[0]) && !IsSpace(r[|r| - 1])
    ensures TrimmedAt(s, r, LeadingEnd(s, 0))
  {
    var i := LeadingEnd(s, 0);
    var j := TrailingStart(s, i, |s|);
    var r := s[i..j];
    assert TrimmedAt(s, r, i);
    r
  }

  /** Trimming never introduces a separator. */
  lemma TrimFree(s: string, sep: Separator)
    requires FreeOf(s, sep)
    ensures FreeOf(Trim(s), sep)
  {
    var r := Trim(s);
    var i := LeadingEnd(s, 0);
    forall k | 0 <= k < |r| ensures !Separates(sep, r[k]) {
      assert r[k] == s[i + k];
    }
  }

  // ---------------------------------------------------------------------------
  // Searching and replacing

  predicate OccursAt(s: string, p: string, i: int) {
    0 <= i && i + |p| <= |s| && s[i..i + |p|] == p
  }

  /** The first position at or after `from` where `p` occurs. */
  function IndexFrom(s: string, p: string, from: nat): (r: Option<nat>)
    ensures r.Some? ==> from <= r.value && OccursAt(s, p, r.value)
                        && forall k :: from <= k < r.value ==> !OccursAt(s, p, k)
    ensures r.None? ==> forall k :: from <= k ==> !OccursAt(s, p, k)
    decreases |s| - from
  {
    if from + |p| > |s| then None
    else if s[from..from + |p|] == p then Some(from)
    else IndexFrom(s, p, from + 1)
  }

  /** `s.indexOf(p)`, with `None` for -1. */
  function IndexOf(s: string, p: string): (r: Option<nat>)
    ensures r.Some? ==> OccursAt(s, p, r.value) && forall k :: 0 <= k < r.value ==> !OccursAt(s, p, k)
    ensures r.None? ==> forall k :: !OccursAt(s, p, k)
  {
    IndexFrom(s, p, 0)
  }

  /** `s.includes(p)`: the pattern occurs somewhere in `s`. */
  predicate Contains(s: string, p: string): (b: bool)
    ensures b <==> exists k :: OccursAt(s, p, k)
  {
    IndexOf(s, p).Some?
  }

  /** An occurrence survives putting text in front. */
  lemma OccursAfter(u: string, t: string, p: string, k: nat)
    requires OccursAt(t, p, k)
    ensures OccursAt(u + t, p, |u| + k)
  {
    assert (u + t)[|u| + k..|u| + k + |p|] == t[k..k + |p|];
  }

  /** Every piece occurs in the join of the pieces, at the returned offset. */
  lemma {:induction false} JoinOccurs(ws: seq<string>, i: nat, sep: string) returns (k: nat)
    requires i < |ws|
    ensures OccursAt(Join(ws, sep), ws[i], k)
    decreases |ws|
  {
    if i == 0 {
      k := 0;
      assert Join(ws, sep)[..|ws[0]|] == ws[0];
    } else {
      var k' := JoinOccurs(ws[1..], i - 1, sep);
      OccursAfter(ws[0] + sep, Join(ws[1..], sep), ws[i], k');
      k := |ws[0] + sep| + k';
    }
  }

  /** Each blank-separated piece of `s` occurs in `s`. */
  lemma PieceOccurs(s: string, i: nat)
    requires i < |Split(s, Blank)|
    ensures Contains(s, Split(s, Blank)[i])
  {
    JoinSplit(s);
    var k := JoinOccurs(Split(s, Blank), i, " ");
  }

  /** `s.replace(p, rep)` with a string pattern: only the first occurrence
      is replaced. */
  function ReplaceFirst(s: string, p: string, rep: string): (r: string)
    ensures !Contains(s, p) ==> r == s
    ensures Contains(s, p) ==> |r| == |s| - |p| + |rep|
  {
    match IndexOf(s, p)
    case None => s
    case Some(i) => s[..i] + rep + s[i + |p|..]
  }

  /** Replacing the first occurrence leaves everything else in place: putting
      the pattern back where the replacement sits gives the original. */
  lemma ReplaceFirstUndo(s: string, p: string, rep: string)
    requires Contains(s, p)
    ensures var i := IndexOf(s, p).value;
            var r := ReplaceFirst(s, p, rep);
            && i + |rep| <= |r|
            && r[i..i + |rep|] == rep
            && r[..i] + p + r[i + |rep|..] == s
            && forall k :: 0 <= k < i ==> !OccursAt(s, p, k)
  {
    var i := IndexOf(s, p).value;
    var r := ReplaceFirst(s, p, rep);
    assert r == s[..i] + rep + s[i + |p|..];
    assert r[..i] == s[..i];
    assert r[i + |rep|..] == s[i + |p|..];
    assert s[i..i + |p|] == p;
    assert s == s[..i] + s[i..i + |p|] + s[i + |p|..];
  }

  /** `s.replace(/p/g, rep)` for a literal pattern: every occurrence, scanning
      left to right without overlaps. */
  function ReplaceAll(s: string, p: string, rep: string): (r: string)
    requires |p| > 0
    ensures |rep| >= |p| ==> |r| >= |s|
    decreases |s|
  {
    if |s| < |p| then s
    else if s[..|p|] == p then rep + ReplaceAll(s[|p|..], p, rep)
    else [s[0]] + ReplaceAll(s[1..], p, rep)
  }

  /** Dropping the first character moves every occurrence one place left. */
  lemma OccursShift(s: string, p: string, k: nat)
    requires |s| > 0
    ensures OccursAt(s, p, k + 1) <==> OccursAt(s[1..], p, k)
  {
    if k + 1 + |p| <= |s| {
      assert s[1..][k..k + |p|] == s[k + 1..k + 1 + |p|];
    }
  }

  /** Without an occurrence of the pattern a global replace changes nothing. */
  lemma {:induction false} ReplaceAllUnchanged(s: string, p: string, rep: string)
    requires |p| > 0
    ensures (forall k :: !OccursAt(s, p, k)) ==> ReplaceAll(s, p, rep) == s
    decreases |s|
  {
    if (forall k :: !OccursAt(s, p, k)) && |s| >= |p| {
      assert !OccursAt(s, p, 0);
      forall k: nat ensures !OccursAt(s[1..], p, k) {
        OccursShift(s, p, k);
      }
      ReplaceAllUnchanged(s[1..], p, rep);
      assert [s[0]] + s[1..] == s;
    }
  }

  /** With a longer replacement, any occurrence makes the text grow. */
  lemma {:induction false} ReplaceAllGrows(s: string, p: string, rep: string)
    requires |p| > 0
    ensures |rep| > |p| && (exists k :: OccursAt(s, p, k)) ==> |ReplaceAll(s, p, rep)| > |s|
    decreases |s|
  {
    if |rep| > |p| && (exists k :: OccursAt(s, p, k)) {
      var k :| OccursAt(s, p, k);
      if s[..|p|] != p {
        assert k > 0;
        OccursShift(s, p, k - 1);
        ReplaceAllGrows(s[1..], p, rep);
      }
    }
  }

  /** Where the pattern does not start, a global replace keeps the first
      character and moves on. */
  lemma ReplaceAllSkip(s: string, p: string, rep: string)
    requires |p| > 0 && |s| > 0 && !OccursAt(s, p, 0)
    ensures ReplaceAll(s, p, rep) == [s[0]] + ReplaceAll(s[1..], p, rep)
  {
    if |s| >= |p| {
      assert s[..|p|] != p;
    }
  }

  /** Where the pattern starts, a global replace puts the replacement first. */
  lemma ReplaceAllHead(s: string, p: string, rep: string)
    requires |p| > 0 && OccursAt(s, p, 0)
    ensures ReplaceAll(s, p, rep) == rep + ReplaceAll(s[|p|..], p, rep)
  {
    assert s[..|p|] == p;
  }

  /** One more character of the scanned text is kept when the pattern does
      not start there. */
  lemma ReplaceAllKeepStep(s: string, p: string, rep: string, j: nat)
    requires |p| > 0 && 0 < j <= |s| && !OccursAt(s, p, j - 1)
    ensures s[..j - 1] + ReplaceAll(s[j - 1..], p, rep) == s[..j] + ReplaceAll(s[j..], p, rep)
  {
    var u := s[j - 1..];
    if |p| <= |u| {
      assert u[0..|p|] == s[j - 1..j - 1 + |p|];
    }
    ReplaceAllSkip(u, p, rep);
    assert u[1..] == s[j..];
    assert s[..j - 1] + [s[j - 1]] == s[..j];
  }

  /** The scan of a global replace keeps every character before the first
      occurrence of the pattern. */
  lemma {:induction false} ReplaceAllKeeps(s: string, p: string, rep: string, j: nat)
    requires |p| > 0 && j <= |s|
    requires forall k :: 0 <= k < j ==> !OccursAt(s, p, k)
    ensures ReplaceAll(s, p, rep) == s[..j] + ReplaceAll(s[j..], p, rep)
    decreases j
  {
    if j == 0 {
      assert s[..0] + ReplaceAll(s[0..], p, rep) == ReplaceAll(s, p, rep);
    } else {
      ReplaceAllKeeps(s, p, rep, j - 1);
      ReplaceAllKeepStep(s, p, rep, j);
    }
  }

  /** The scan of a global replace reaches the first occurrence unchanged
      and replaces it. */
  lemma ReplaceAllAt(s: string, p: string, rep: string, i: nat)
    requires |p| > 0 && OccursAt(s, p, i)
    requires forall k :: 0 <= k < i ==> !OccursAt(s, p, k)
    ensures ReplaceAll(s, p, rep) == s[..i] + rep + ReplaceAll(s[i + |p|..], p, rep)
  {
    ReplaceAllKeeps(s, p, rep, i);
    ReplaceAllHeadAt(s, p, rep, i);
    var tail := ReplaceAll(s[i + |p|..], p, rep);
    assert s[..i] + (rep + tail) == s[..i] + rep + tail;
  }

  /** The scan resumed at an occurrence of the pattern starts with the
      replacement. */
  lemma ReplaceAllHeadAt(s: string, p: string, rep: string, i: nat)
    requires |p| > 0 && OccursAt(s, p, i)
    ensures ReplaceAll(s[i..], p, rep) == rep + ReplaceAll(s[i + |p|..], p, rep)
  {
    var u := s[i..];
    assert u[0..|p|] == p;
    ReplaceAllHead(u, p, rep);
    assert u[|p|..] == s[i + |p|..];
  }

  /** An occurrence anywhere means `includes` holds. */
  lemma OccursContains(s: string, p: string, k: nat)
    requires OccursAt(s, p, k)
    ensures Contains(s, p)
  {
  }

  /** A global replace rewrites the first occurrence: the text before it is
      kept, the replacement takes its place, and the scan resumes after it.
      So the result holds the replacement wherever the pattern occurred. */
  lemma ReplaceAllFirst(s: string, p: string, rep: string)
    requires |p| > 0 && Contains(s, p)
    ensures var i := IndexOf(s, p).value;
            && ReplaceAll(s, p, rep) == s[..i] + rep + ReplaceAll(s[i + |p|..], p, rep)
            && OccursAt(ReplaceAll(s, p, rep), rep, i)
            && Contains(ReplaceAll(s, p, rep), rep)
  {
    var i := IndexOf(s, p).value;
    ReplaceAllAt(s, p, rep, i);
    var tail := ReplaceAll(s[i + |p|..], p, rep);
    var r := s[..i] + rep + tail;
    assert r[i..i + |rep|] == rep;
    OccursContains(r, rep, i);
  }

  // ---------------------------------------------------------------------------
  // Decimal numerals

  predicate AllDigits(s: string) {
    forall k :: 0 <= k < |s| ==> IsDigit(s[k])
  }

  function DigitValue(c: char): nat
    requires IsDigit(c)
  {
    c as int - '0' as int
  }

  function DigitChar(d: nat): (c: char)
    requires d < 10
    ensures IsDigit(c) && DigitValue(c) == d
  {
    ('0' as int + d) as char
  }

  /** Ten to the power `e`. */
  function Pow10(e: nat): (r: nat)
    ensures r >= 1
  {
    if e == 0 then 1 else 10 * Pow10(e - 1)
  }

  /** `parseInt` of a run of decimal digits: `|s|` digits hold a value below
      ten to the power `|s|`. */
  function DecimalValue(s: string): (r: nat)
    requires AllDigits(s)
    ensures r < Pow10(|s|)
    decreases |s|
  {
    if |s| == 0 then 0 else 10 * DecimalValue(s[..|s| - 1]) + DigitValue(s[|s| - 1])
  }

  /** A leading zero does not change the value `parseInt` reads. */
  lemma {:induction false} DecimalLeadingZero(s: string)
    requires |s| > 0 && AllDigits(s) && s[0] == '0'
    ensures DecimalValue(s) == DecimalValue(s[1..])
    decreases |s|
  {
    if |s| > 1 {
      var init := s[..|s| - 1];
      assert init[1..] == s[1..][..|s[1..]| - 1];
      DecimalLeadingZero(init);
    }
  }

  /** `n.toString()` for a natural number: decimal digits, no leading zero. */
  function Decimal(n: nat): (r: string)
    ensures |r| >= 1 && AllDigits(r)
    ensures n >= 10 ==> |r| >= 2 && r[0] != '0'
    decreases n
  {
    if n < 10 then [DigitChar(n)] else Decimal(n / 10) + [DigitChar(n % 10)]
  }

  /** A printed number has exactly as many digits as it needs. */
  lemma {:induction false} DecimalLength(n: nat)
    ensures var r := Decimal(n);
            n < Pow10(|r|) && (|r| == 1 || Pow10(|r| - 1) <= n)
    decreases n
  {
    if n >= 10 {
      DecimalLength(n / 10);
    }
  }

  /** Reading back a printed number gives the number. */
  lemma {:induction false} DecimalRoundTrip(n: nat)
    ensures DecimalValue(Decimal(n)) == n
    decreases n
  {
    if n >= 10 {
      DecimalRoundTrip(n / 10);
      var r := Decimal(n);
      assert r[..|r| - 1] == Decimal(n / 10);
    }
  }

  /** The length of the run of digits `s` starts with. */
  function DigitRun(s: string): (k: nat)
    ensures k <= |s| && AllDigits(s[..k])
    ensures k < |s| ==> !IsDigit(s[k])
    decreases |s|
  {
    if |s| > 0 && IsDigit(s[0]) then 1 + DigitRun(s[1..]) else 0
  }

  /** The run of digits at the front of `d + x` is `d`, when `x` does not
      start with a digit. */
  lemma {:induction false} DigitRunAppend(d: string, x: string)
    requires AllDigits(d)
    requires |x| == 0 || !IsDigit(x[0])
    ensures DigitRun(d + x) == |d|
    decreases |d|
  {
    if |d| > 0 {
      assert (d + x)[1..] == d[1..] + x;
      DigitRunAppend(d[1..], x);
    } else {
      assert d + x == x;
    }
  }
}
